=== FILE: README.md ===
# Manga catalogue service — a Dafny model of its core

The service is a small HTTP back end written in Go on gin. It keeps a users table and a manga catalogue in PostgreSQL. Users register and log in with bcrypt-hashed passwords and receive a 24-hour HS256 JWT. One middleware (`AuthRequired`) reads that token and admits or refuses a request according to the role stored in it. Routes fall into groups:

- public registration, login and catalogue reads;
- a user area for changing one's own profile and password;
- an admin area for user moderation and catalogue management;
- an empty super-admin group.

This project models that core as pure functions over immutable values and proves what each operation promises.

- `Wrappers`, `Http`: `Option`, and the HTTP status codes the handlers use.
- `Strconv`: Go's `strconv.ParseInt(s, 10, 64)` and `strconv.Atoi`. This covers the range error, which still returns the clamped value, and the optional sign. `FormatInt` is the inverse used to state round trips.
- `Bcrypt`: a symbolic digest `Hashed(cost, salt, secret)`. The salt bcrypt would draw is an input, and `None` means generation failed. An unreadable stored hash is its own case.
- `Jwt`: the JWT library is a record of two functions, signing and parsing. The ghost predicate `Sound` states what the library guarantees: a token it signed parses back, with the key, to the same claims and is valid while `exp` lies in the future. Lemmas that rely on the library take `Sound(lib)` as a hypothesis.
- `Models`: roles, users, the public (password-free) view of a user, the four manga statuses and the manga row.
- `Auth`: password hashing and checking, and token issue (internal/auth/auth.go).
- `Middleware`: the authorization gate (internal/middleware/auth.go). It has four outcomes:
  - continue with `userID`/`userRole` set on the context;
  - abort with 401 (missing header, invalid token, non-map claims);
  - abort with 403 (role not in the allow-set);
  - the panic the unchecked type assertions on the `role` and `id` claims raise.
- `UserHandlers`: register, login, profile and password change, user listing, block and delete (internal/handlers/users.go). The users table is a sequence of rows, and every handler returns status, table and body.
- `Pagination`: the page/limit normalisation and the offset and page-count arithmetic of the two listings.
- `MangaQuery`: the SQL the manga handlers build, as data: numbered filter placeholders with their arguments, and the dynamic `UPDATE … SET` list. It also gives `Apply`, the meaning of an update statement on a row, and `Merge`, an independent field-by-field definition of what an update request changes.
- `MangaHandlers`: listing (public and admin), show, create, update and soft delete (internal/handlers/manga.go). The database's `ILIKE` test is the parameter `like`.
- `Server`: the route table, the route groups with their allow-sets, and the CORS preflight answer of cmd/server/main.go. `Admit` is what happens to a request before any handler runs.

Inputs the source takes from the outside world are parameters:

- the clock `now`;
- the bcrypt salt;
- the id the database assigns to a new row;
- the JWT library;
- `ILIKE`;
- whether a request body binds.

## Model

| member | source | states |
|---|---|---|
| `Bcrypt.GenerateFromPassword` | internal/auth/auth.go:14 | a digest exists exactly when randomness was available; it records the requested cost and the drawn salt |
| `Bcrypt.CompareHashAndPassword` | internal/auth/auth.go:19 | no error exactly when the hash is well formed and was made from this password; a malformed hash is an error |
| `Auth.HashPassword` | internal/auth/auth.go:13-16 | hashing fails only when randomness fails; the digest uses cost 14, accepts the password it was made from and rejects every other password |
| `Auth.CheckPassword` | internal/auth/auth.go:18-21 | true exactly when the stored hash is readable and was made from the given password; an unreadable hash never matches |
| `Auth.TokenClaims` | internal/auth/auth.go:24-28 | the claims are exactly `id`, `role` and `exp`; `id` is the user id as a number, `role` the role name, `exp` the issue time plus 86400 seconds, and the claims are unexpired exactly before that instant |
| `Auth.GenerateToken` | internal/auth/auth.go:23-32 | with a sound library, an issued token parses with the key as valid map claims equal to the issued claims at every instant before the 24-hour expiry |
| `Auth.IssuedTokenVerifies` | internal/auth/auth.go:23-32 | with a sound library, a token issued to a user parses with the key, before expiry, as valid map claims equal to that user's claims |
| `Models.RoleNamesAreExactlyThree` | internal/models/user.go:5-9 | the three role constants are distinct, and they are the only recognised role names |
| `Models.PublicViewHidesOnlyPassword` | internal/models/user.go:15 | two users have the same JSON view exactly when they differ at most in the password |
| `Models.ParseStatus` | internal/handlers/manga.go:157-170 | a text is accepted exactly when it is the name of one of the four statuses, and then it names that status |
| `Strconv.ParseInt64` | internal/handlers/users.go:228 | a parsed value fits in 64 bits; a range error carries MinInt64 exactly when the text starts with `-` and MaxInt64 otherwise; an empty text or a bad first character is a syntax error |
| `Strconv.FormatOutOfRangeClamps` | internal/handlers/users.go:228 | the decimal text of any number outside 64 bits parses to a range error carrying the bound on its side |
| `Strconv.ScanDigitsRange` | internal/handlers/users.go:228 | the digits of a number past MaxUint64 stop the scan with a range error |
| `Strconv.FormatThenParse` | internal/handlers/users.go:228 | every 64-bit integer written in decimal parses back to itself |
| `Middleware.StripBearer` | internal/middleware/auth.go:22-25 | a header starting with "Bearer " loses exactly that prefix; any other header is kept whole |
| `Middleware.StripBearerRoundTrip` | internal/middleware/auth.go:22-25 | prefixing a token with "Bearer " and stripping gives the token back |
| `Middleware.Truncate` | internal/middleware/auth.go:45 | the float-to-integer conversion rounds toward zero |
| `Middleware.ReadIdentity` | internal/middleware/auth.go:44-45 | an identity is read exactly when `role` is a string claim and `id` a numeric claim; it carries that role and the truncated id |
| `Middleware.IssuedClaimsIdentity` | internal/middleware/auth.go:44-45 | the identity read from issued claims is the user's id and role name |
| `Middleware.RoleAllowed` | internal/middleware/auth.go:48-54 | true exactly when some role in the allow-set has the claimed name |
| `Middleware.RejectionStatus` | internal/middleware/auth.go:16-60 | an insufficient role is answered with 403; every other refusal with 401 |
| `Middleware.Annotate` | internal/middleware/auth.go:63-64 | the context gains `userID` and `userRole` with the identity's values; every other key is unchanged |
| `Middleware.AuthRequired` | internal/middleware/auth.go:13-67 | an empty header aborts with a missing-credential refusal; an abort leaves the context as it was; continuing requires verified claims, a readable identity and an allowed role, and sets exactly that identity |
| `Middleware.InvalidTokenUnauthorized` | internal/middleware/auth.go:27-35 | a token that fails to parse or is not valid aborts as an invalid token, answered with 401 |
| `Middleware.NonMapClaimsUnauthorized` | internal/middleware/auth.go:37-42 | valid claims that are not a map abort with an invalid-claims refusal |
| `Middleware.ContinuesIffRoleAllowed` | internal/middleware/auth.go:48-60 | with verified claims and a readable identity, the gate continues exactly when the role is in the allow-set, and otherwise aborts with an insufficient role |
| `Middleware.UnrecognisedRoleForbidden` | internal/middleware/auth.go:48-60 | a role name that is none of the three roles is refused by every gate |
| `Middleware.MalformedIdentityCrashes` | internal/middleware/auth.go:44-45 | verified claims whose `role` is not a string or whose `id` is not a number make the gate panic |
| `Middleware.NoRoleHierarchy` | internal/middleware/auth.go:48-54 | roles are compared by name only: a super administrator is refused by a user-only gate and by an admin-only gate |
| `Middleware.IssuedTokenPassesGate` | internal/middleware/auth.go:13-67 | an unexpired issued token, with or without the "Bearer " prefix, passes every gate that allows the user's role and sets the user's id and role |
| `Pagination.Normalize` | internal/handlers/manga.go:49-60 | the window always has page at least 1 and limit between 1 and 100; a page or limit that does not parse falls back to 1 or 20 |
| `Pagination.NormalizeDefaults` | internal/handlers/manga.go:49-50 | with neither parameter the window is page 1, limit 20 |
| `Pagination.NormalizeHonoursValidValues` | internal/handlers/manga.go:49-60 | a 64-bit page is kept when it is at least 1 and becomes 1 otherwise; a 64-bit limit is kept exactly when it lies in 1..100 and is otherwise 20 |
| `Pagination.OverlongPageBecomesMaxInt64` | internal/handlers/manga.go:49 | a page beyond the 64-bit range but within the unsigned range becomes the largest 64-bit integer, because the range error is ignored |
| `Pagination.Wrap64` | internal/handlers/manga.go:62 | the result is a 64-bit integer congruent to the input modulo 2^64, and equal to it when it already fits |
| `Pagination.OffsetAsWritten` | internal/handlers/manga.go:62 | the offset as the source computes it always fits in 64 bits, and it is exact when the product fits |
| `Pagination.OffsetAsWrittenWrapsNegative` | internal/handlers/manga.go:62 | page 461168601842738792 with the default limit normalises unchanged, and its computed offset is negative |
| `Pagination.PageKeptAtDefaultLimit` | internal/handlers/manga.go:49-60 | any valid page number, with no limit given, is kept as it is, with the limit 20 |
| `Pagination.OverflowPageWraps` | internal/handlers/manga.go:62 | for page 461168601842738792 and limit 20 the 64-bit product wraps to -9223372036854775796 |
| `Pagination.OffsetAsWrittenWrapsToZero` | internal/handlers/manga.go:49-62 | page 288230376151711745 with limit 64 normalises unchanged; its intended offset is 2^64, but the computed offset wraps to 0, the offset of page 1 |
| `Pagination.PageAndLimitKept` | internal/handlers/manga.go:49-60 | any valid page number with a limit in 1..100 normalises to exactly that page and limit |
| `Pagination.WrapPageWraps` | internal/handlers/manga.go:62 | for page 288230376151711745 and limit 64 the 64-bit product wraps to exactly 0 |
| `Pagination.Offset` | internal/handlers/manga.go:62 | the offset is a non-negative multiple of the limit, and dividing by the limit gives the number of earlier pages |
| `Pagination.OffsetsTile` | internal/handlers/manga.go:62 | the first page starts at 0, and each next page starts one limit further |
| `Pagination.TotalPages` | internal/handlers/manga.go:117 | the pages cover the total, the last page is not empty, and there are no pages exactly when there are no rows |
| `UserHandlers.FindByUsername` | internal/handlers/users.go:88-98 | a row found has that username; nothing is found exactly when no row has it |
| `UserHandlers.FindById` | internal/handlers/users.go:235-244 | a row found has that id; nothing is found exactly when no row has it |
| `UserHandlers.FindByUsernameUnique` | internal/handlers/users.go:88-98 | in a well-formed table, looking up a row's username finds that row |
| `UserHandlers.DeleteWhereId` | internal/handlers/users.go:290 | the rows kept are exactly those of the table whose id differs |
| `UserHandlers.DeleteRemovesOnlyRow` | internal/handlers/users.go:290 | when one row carries the id, deleting it leaves the rows before and after it, in their order |
| `UserHandlers.DeleteKeepsAllOthers` | internal/handlers/users.go:290 | deleting an id no row carries leaves the table as it is |
| `UserHandlers.Register` | internal/handlers/users.go:40-82 | a bad body gives 400, a taken username or email gives 409, and a hashing failure gives 500, each leaving the table unchanged; with a free name and email and available randomness, 201 exactly when the new id is free; no other status; 201 puts one new row at the front of the table (newest first) with the new id, name and email, role "user", not blocked, whose hash accepts the password |
| `UserHandlers.Login` | internal/handlers/users.go:85-131 | no table change; unknown user 401; blocked user 403; wrong password 401; for a known, unblocked user with the right password, 200 exactly when a token is issued and 500 otherwise; 200 returns that user's token, id, username, email and role |
| `UserHandlers.UnauthorizedLoginCauses` | internal/handlers/users.go:93-113 | a bound login is answered 401 exactly when the user is unknown, or is unblocked with a wrong password |
| `UserHandlers.ChangeProfile` | internal/handlers/users.go:134-170 | a bad body gives 400; 409 exactly when another user holds the username or email, and 200 otherwise; on 200 only the caller's row changes, and only its username and email |
| `UserHandlers.ChangePassword` | internal/handlers/users.go:173-211 | a bad body gives 400; a missing caller row gives 500; a wrong old password gives 400; with the right old password, 200 exactly when randomness is available and 500 otherwise; on 200 only the caller's row changes, and only its hash, which accepts the new password |
| `UserHandlers.ListingHidesPasswords` | internal/handlers/users.go:214-223 | the user listing never reveals a password hash: two tables that differ only in hashes produce the same listing |
| `UserHandlers.TargetCheck` | internal/handlers/users.go:227-250 | an id that does not parse gives 400; an unknown id gives 404; a super administrator gives 403; a parsed, existing, non-super-admin id is the target, and every target is one |
| `UserHandlers.BlockUser` | internal/handlers/users.go:226-260 | the target check's refusals leave the table unchanged; a target gives 200; on 200 only the target row changes, and it becomes blocked |
| `UserHandlers.DeleteUser` | internal/handlers/users.go:263-297 | the target check's refusals leave the table unchanged; a target gives 200 and the table with the target id's rows deleted; on 200 the target's rows are gone and every other row remains |
| `UserHandlers.DeleteUserRemovesTarget` | internal/handlers/users.go:263-297 | in a well-formed table, deleting an ordinary user answers 200 and leaves exactly the other rows, in their order |
| `UserHandlers.DeletePreservesWellFormed` | internal/handlers/users.go:290 | deleting by id keeps ids, usernames and emails distinct |
| `UserHandlers.RegisterPreservesWellFormed` | internal/handlers/users.go:47-76 | registration keeps ids, usernames and emails distinct, because taken names and emails are refused and an insert under an id in use fails |
| `UserHandlers.ChangeProfilePreservesWellFormed` | internal/handlers/users.go:143-162 | a profile change keeps usernames and emails distinct, because values held by another user are refused |
| `UserHandlers.ChangePasswordPreservesWellFormed` | internal/handlers/users.go:173-211 | a password change keeps the table well formed |
| `UserHandlers.BlockPreservesWellFormed` | internal/handlers/users.go:226-260 | blocking keeps the table well formed |
| `UserHandlers.DeleteUserPreservesWellFormed` | internal/handlers/users.go:263-297 | deleting a user keeps the table well formed |
| `MangaQuery.AddFilter` | internal/handlers/manga.go:71-90 | a filter that applies is appended with the next placeholder number and its argument; one that does not changes nothing; placeholders stay numbered 1, 2, … in argument order |
| `MangaQuery.BuildFilters` | internal/handlers/manga.go:71-90 | the filters are search, author, status in that order, each present exactly when its parameter is non-empty, and each argument is `%text%` for the two text filters and the status itself |
| `MangaQuery.ConsecutiveFiltersBound` | internal/handlers/manga.go:71-90 | every placeholder a filter mentions has an argument |
| `MangaQuery.ListQueryBound` | internal/handlers/manga.go:101-102 | LIMIT and OFFSET placeholders that follow the filter arguments are bound too |
| `MangaQuery.PublicListQuery` | internal/handlers/manga.go:64-102 | the listing query reads active rows with the built filters; LIMIT and OFFSET take the two placeholders after them, bound to the limit and offset; every placeholder is bound |
| `MangaQuery.PublicCountQuery` | internal/handlers/manga.go:65-98 | the count query reads active rows with the same filters and arguments as the listing, which only adds limit and offset |
| `MangaQuery.AdminListQuery` | internal/handlers/manga.go:366-377 | the admin listing has no filters and no active-only restriction; limit and offset are placeholders 1 and 2 |
| `MangaQuery.AddAssignment` | internal/handlers/manga.go:229-299 | an applying check appends exactly its column on the next placeholder and its value as the next argument; a check that does not apply changes nothing |
| `MangaQuery.NoCheckFires` | internal/handlers/manga.go:229-299 | there are twelve field checks, and none applies exactly when the request changes nothing |
| `MangaQuery.AddAll` | internal/handlers/manga.go:229-299 | folding the remaining checks keeps the numbering and adds assignments exactly when some remaining check applies |
| `MangaQuery.AddAllAppendsFired` | internal/handlers/manga.go:229-299 | folding the remaining checks keeps the existing assignments and arguments in front and appends exactly the applying checks' columns and values, in the handler's order, on consecutive placeholders |
| `MangaQuery.BuildAssignments` | internal/handlers/manga.go:229-299 | the SET list is empty exactly when the request changes nothing |
| `MangaQuery.BuiltAssignmentsAreFired` | internal/handlers/manga.go:229-299 | the SET list holds exactly the applying checks' columns on `$1`, `$2`, ... in field order, and the arguments are their values in the same order |
| `MangaQuery.FieldsInColumnOrder` | internal/handlers/manga.go:229-299 | the handler checks the twelve columns in a fixed order, each once |
| `MangaQuery.FiredInOrder` | internal/handlers/manga.go:229-299 | the applying checks keep the handler's order, so no column among them repeats |
| `MangaQuery.BuiltColumnsDistinct` | internal/handlers/manga.go:229-299 | the SET list never names a column twice |
| `MangaQuery.UpdateQuery` | internal/handlers/manga.go:229-309 | no statement exactly when nothing changes; otherwise the statement sets `updated_at` and numbered assignments, and the WHERE placeholder comes last, bound to the id |
| `MangaQuery.UpdateQuerySetsFired` | internal/handlers/manga.go:229-309 | for a request that changes something, the statement sets exactly the columns of the non-zero fields, in field order and each once, binds their values in that order, and binds the id last |
| `MangaQuery.ApplyIgnoresLaterArgs` | internal/handlers/manga.go:306-309 | appending the id argument does not change what the assignments write |
| `MangaQuery.AddAssignmentStep` | internal/handlers/manga.go:229-233 | one check adds a write of its column exactly when it applies |
| `MangaQuery.AddAllPerforms` | internal/handlers/manga.go:229-299 | the statement built from the checks writes what performing the applying checks in order writes |
| `MangaQuery.TextFieldsPerformed` | internal/handlers/manga.go:229-245 | the title, description and author checks write each non-empty field |
| `MangaQuery.DetailFieldsPerformed` | internal/handlers/manga.go:247-263 | the artist, genres and status checks write a non-empty artist, present genres and a non-empty status |
| `MangaQuery.NumberFieldsPerformed` | internal/handlers/manga.go:265-281 | the year, chapters and price checks write each non-zero value |
| `MangaQuery.ListingFieldsPerformed` | internal/handlers/manga.go:283-299 | the cover image, stock and active-flag checks write a non-empty cover, a non-zero stock and a present flag |
| `MangaQuery.StagesMerge` | internal/handlers/manga.go:229-299 | applying the four groups of checks in order is the merge of the request into the row |
| `MangaQuery.PerformAllMerges` | internal/handlers/manga.go:229-299 | performing all twelve checks on a row gives its merge with the request |
| `MangaQuery.BuiltPerformsMerge` | internal/handlers/manga.go:229-299 | the built SET list, with its own arguments, applied to any row gives the merge of the request into it |
| `MangaQuery.UpdateQueryPerformsMerge` | internal/handlers/manga.go:229-309 | for a request that changes something, the built UPDATE applied to any row gives the merge: each field given is written, and every other field keeps its value |
| `MangaHandlers.FindManga` | internal/handlers/manga.go:212-222 | a row found has that id; nothing is found exactly when no row has it |
| `MangaHandlers.FindActive` | internal/handlers/manga.go:131-143 | a row found has that id and is active; nothing is found exactly when no active row has it |
| `MangaHandlers.Page` | internal/handlers/manga.go:101-104 | LIMIT/OFFSET: at most `limit` rows, the rows from position `offset` on in order, none past the end |
| `MangaHandlers.Where` | internal/handlers/manga.go:64-90 | the WHERE clause keeps exactly the table's rows that satisfy it |
| `MangaHandlers.Matching` | internal/handlers/manga.go:64-90 | the reference selection holds exactly the active rows that match every non-empty filter |
| `MangaHandlers.AllKindsHold` | internal/handlers/manga.go:71-90 | every built filter holding on a row is the same as the row matching the search, author and status criteria |
| `MangaHandlers.FilterReadsItsArg` | internal/handlers/manga.go:71-90 | each built filter's placeholder is bound, and the filter reads the argument meant for its kind |
| `MangaHandlers.FiltersReadTheirArgs` | internal/handlers/manga.go:71-90 | all built filters are bound and read the arguments meant for their kinds |
| `MangaHandlers.PublicFiltersMean` | internal/handlers/manga.go:64-90 | a row passes the public WHERE clause exactly when it is active and matches every non-empty filter |
| `MangaHandlers.PublicWhereIsMatching` | internal/handlers/manga.go:64-98 | the public WHERE clause selects exactly the reference selection, in table order |
| `MangaHandlers.PublicCountIsMatching` | internal/handlers/manga.go:92-98 | the count query is bound and counts exactly the active entries matching every non-empty filter |
| `MangaHandlers.PublicListIsPage` | internal/handlers/manga.go:100-107 | the listing query is runnable and returns the LIMIT/OFFSET window of exactly the matching active entries |
| `MangaHandlers.WhereSelectsAll` | internal/handlers/manga.go:366-377 | the admin listing's empty WHERE clause selects the whole table, inactive rows included |
| `MangaHandlers.GetAllManga` | internal/handlers/manga.go:48-120 | 200 with the normalised page and limit, the total of matching active rows, the page count, and the window of matching rows at the offset; the table is unchanged |
| `MangaHandlers.GetAllMangaAdmin` | internal/handlers/manga.go:353-392 | 200 with the window of all rows, active or not, and the whole table counted |
| `MangaHandlers.GetMangaByID` | internal/handlers/manga.go:123-146 | 400 exactly when the id does not parse; 200 exactly when an active row has it, returning that row; 404 otherwise |
| `MangaHandlers.CreateManga` | internal/handlers/manga.go:149-194 | a bad body gives 400; 400 exactly when the status is not one of the four; 500 exactly when the new id is taken; no other status, so a valid status and a free id give 201; 201 puts one active row at the front of the table (newest first) with every field of the request |
| `MangaHandlers.UpdateQueryMergesEveryRow` | internal/handlers/manga.go:229-311 | for a request that changes something, the built statement merges the request into any row |
| `MangaHandlers.UpdateManga` | internal/handlers/manga.go:197-318 | a bad id or body gives 400; an unknown id gives 404; an empty update gives 400; an existing id with a change gives 200; 200 replaces each row with the id by its merge with the request; no other row changes |
| `MangaHandlers.DeleteManga` | internal/handlers/manga.go:321-350 | a bad id gives 400; an unknown id gives 404; 200 marks the rows with the id inactive and changes nothing else |
| `MangaHandlers.SoftDeleteHides` | internal/handlers/manga.go:343 | after a successful delete, showing that id gives 404 |
| `MangaHandlers.SoftDeleteKeeps` | internal/handlers/manga.go:330-343 | the row stays in the table: deleting it again succeeds, and so does an update that changes something |
| `MangaHandlers.UpdateCanReactivate` | internal/handlers/manga.go:295-297 | an update that sets the active flag makes the row visible again |
| `MangaHandlers.UpdateStoresUnknownStatus` | internal/handlers/manga.go:259-261 | creating with status "paused" is refused, yet updating a row to "paused" succeeds and stores it |
| `MangaHandlers.CreatePreservesIds` | internal/handlers/manga.go:177-188 | creation keeps ids distinct |
| `MangaHandlers.UpdatePreservesIds` | internal/handlers/manga.go:197-318 | an update keeps ids distinct |
| `MangaHandlers.DeletePreservesIds` | internal/handlers/manga.go:321-350 | a soft delete keeps ids distinct |
| `Server.GroupOf` | cmd/server/main.go:40-69 | register, login and the two catalogue reads are public; profile and password are in the user group; every other route is in the admin group; no route is in the super-admin group |
| `Server.Gate` | cmd/server/main.go:48-76 | only public routes have no gate |
| `Server.RoutesDistinct` | cmd/server/main.go:40-68 | no two routes share a method and a path |
| `Server.RoutesUnderGroupPrefix` | cmd/server/main.go:40-68 | each route's path starts with its group's prefix |
| `Server.GroupAdmits` | cmd/server/main.go:49-73 | the user group admits every role, the admin group administrators and super administrators, the super-admin group super administrators only |
| `Server.Admit` | cmd/server/main.go:22-76 | every preflight, and only a preflight, is answered with status 204 before routing; public routes reach their handler with no identity; gated routes continue, are refused with the gate's status, or panic exactly as the gate does |
| `Server.IssuedTokenAdmission` | cmd/server/main.go:48-69 | an unexpired issued Bearer token is refused with 403 on a gated route exactly when the group does not admit the user's role, and is otherwise admitted with the user's id and role |
| `Server.UserTokenForbiddenOnAdminRoutes` | cmd/server/main.go:56-69 | a user-role token is refused with 403 on every admin route |
| `Server.RegisterLoginScenario` | internal/handlers/users.go:40-131 | a user registered on an empty table can log in; the token is refused on the user listing and admitted to the profile route with the new id and role "user" |

## Left out

- Database failures: every 500 the handlers return after a failed query is left out. Two are kept: an insert whose id is already taken, and `ChangePassword` finding no row for the caller, where "no rows" is itself an error.
- The database is the row sequence. `created_at`/`updated_at` timestamps and `NOW()` are not modelled. Both listings read their table `ORDER BY created_at DESC` (internal/handlers/users.go:216, internal/handlers/manga.go:375), so each table is kept newest first and an insert puts its row at the front. Ordering by an actual timestamp, with ties, is not modelled.
- `ILIKE` is the parameter `like`. Case-insensitive pattern matching is the database's and is not modelled.
- Request binding and validation are one `Option`: `None` is any bind or validator failure. The individual validator tags are not modelled: required fields, `email` format, minimum lengths, and `min=1` on update title and author.
- Because of that, `MangaHandlers.UpdateManga` lets an update set fields the validator would refuse.
- `MangaHandlers.CreateManga` does not require the fields the validator marks required.
- Floating point:
  - JSON numbers are exact reals here;
  - the `id` claim's float64 rounding and the int64 overflow of its conversion are left out;
  - `Middleware.Truncate` only rounds toward zero;
  - the price is an opaque value compared with zero.
- bcrypt internals: the 72-byte password limit, the cost's effect and the encoding are left out. The digest is symbolic.
- JWT internals: signing, encoding, HS256 and the exact expiry boundary belong to the library. They are described only by what `Sound` states.
- `Auth.IssuedTokenVerifies` gives no guarantee when the library is not sound.
- The signing key is a string rather than a byte slice.
- gin itself is left out:
  - path matching (a request names its endpoint);
  - 404 for unknown routes;
  - the CORS response headers;
  - `Recovery`, which turns the gate's panic (`Panicked`) into a 500;
  - `r.Run`.
- internal/config/db.go (connection set-up) and the `StringArray` `Scan`/`Value` conversion are not part of this model.
- Stored role text is the closed `Role` type: a row whose role column holds some other text is not modelled. A token's role claim, by contrast, is any string.
- `MangaHandlers.GetAllManga` passes the intended non-negative offset to the window. The source's 64-bit product can wrap, and the model does not follow it (see Findings). A wrap to a negative offset would make the database refuse the query. A wrap to a smaller non-negative offset serves other rows: page 288230376151711745 at limit 64 gets the rows of page 1, where the model returns an empty window.
- `MangaHandlers.GetAllMangaAdmin` passes the intended offset too. The source computes the same wrapping product at internal/handlers/manga.go:364, with the same two outcomes; see Findings.
- `MangaHandlers.CreateManga` sets the new row's `is_active` to true. The INSERT at internal/handlers/manga.go:177-183 does not name that column, so the model assumes the schema's default is true; the schema is not part of this model.
- `UserHandlers.Register` sets the new user's `is_blocked` to false. The INSERT at internal/handlers/users.go:69-71 does not name that column, so the model assumes the schema's default is false.
- `Pagination.TotalPages` uses unbounded integers. The source's `(total + limit - 1) / limit` cannot overflow for a realistic row count.

## Findings

| source | as written | input that shows it | evidently intended | confidence | as-written member | corrected member |
|---|---|---|---|---|---|---|
| internal/handlers/manga.go:62 (and :364) | `offset := (page - 1) * limit` in 64-bit arithmetic after `page` is only clamped from below | `page=461168601842738792` (limit 20 by default): the product wraps to a negative offset, and PostgreSQL rejects `OFFSET` below zero, so the listing answers 500. `page=288230376151711745&limit=64`: the product is exactly 2^64 and wraps to 0, so the listing silently serves the rows of page 1 under that page number | the offset of page `page` is `(page-1)*limit` as a non-negative number, or the page is capped | not executed | `Pagination.OffsetAsWritten`, `Pagination.OffsetAsWrittenWrapsNegative`, `Pagination.OverflowPageWraps`, `Pagination.OffsetAsWrittenWrapsToZero`, `Pagination.WrapPageWraps` | `Pagination.Offset` |

=== FILE: auth.dfy ===
/** Password hashing and token issuing (internal/auth/auth.go). */
module Auth {
  import opened Wrappers
  import opened Bcrypt
  import opened Jwt
  import opened Models

  /** The single signing key every token is signed and verified with. */
  const JwtKey: string := "your_secret_key"

  /** The bcrypt cost factor. */
  const HashCost: nat := 14

  /** How long an issued token stays valid, in seconds (24 hours). */
  const TokenLifetime: int := 24 * 60 * 60

  /** Hashes a password; fails, with the failure handed to the caller, when
      bcrypt cannot draw its salt. */
  function HashPassword(password: string, random: Option<Salt>): (r: Option<Digest>)
    ensures r.None? <==> random.None?
    ensures r.Some? ==> r.value.Hashed? && r.value.cost == HashCost
    ensures r.Some? ==> CheckPassword(password, r.value)
    ensures r.Some? ==> forall other: string :: other != password ==> !CheckPassword(other, r.value)
  {
    GenerateFromPassword(password, HashCost, random)
  }

  /** Compares a password with a stored hash. Every error the comparison can
      report, a mismatch or an unreadable hash, becomes `false`. */
  function CheckPassword(password: string, hash: Digest): (ok: bool)
    ensures hash.Unreadable? ==> !ok
    ensures ok <==> hash.Hashed? && hash.secret == password
  {
    CompareHashAndPassword(hash, password) == None
  }

  /** The claims of a token issued at Unix time `now`: the user's id and
      role, and an expiry one lifetime later. */
  function TokenClaims(user: User, now: int): (c: MapClaims)
    ensures c.Keys == {"id", "role", "exp"}
    ensures c["id"] == JNumber(user.id as real)
    ensures c["role"] == JString(RoleName(user.role))
    ensures c["exp"] == JNumber((now + TokenLifetime) as real)
    ensures forall t: int :: Unexpired(c, t) <==> t < now + TokenLifetime
  {
    map["id" := JNumber(user.id as real),
        "role" := JString(RoleName(user.role)),
        "exp" := JNumber((now + TokenLifetime) as real)]
  }

  /** Issues a token for `user` at Unix time `now`: HS256 over the claims
      of TokenClaims, signed with JwtKey. Signing may fail. With a sound
      library, an issued token verifies as those claims until it expires. */
  function GenerateToken(user: User, now: int, lib: Library): (r: Option<string>)
    ensures Sound(lib) && r.Some? ==>
      forall at: int | at < now + TokenLifetime ::
        lib.parse(r.value, JwtKey, at) == Parsed(true, Map(TokenClaims(user, now)))
  {
    SignedClaimsVerify(user, now, lib);
    lib.signedString(Token(HS256, TokenClaims(user, now)), JwtKey)
  }

  /** A sound library verifies a signed token carrying a user's claims at
      every instant before the claims' expiry. */
  lemma SignedClaimsVerify(user: User, now: int, lib: Library)
    ensures var t := Token(HS256, TokenClaims(user, now));
      Sound(lib) && lib.signedString(t, JwtKey).Some? ==>
        forall at: int | at < now + TokenLifetime ::
          lib.parse(lib.signedString(t, JwtKey).value, JwtKey, at) == Parsed(true, Map(t.claims))
  {
    var t := Token(HS256, TokenClaims(user, now));
    if Sound(lib) && lib.signedString(t, JwtKey).Some? {
      forall at: int | at < now + TokenLifetime
        ensures lib.parse(lib.signedString(t, JwtKey).value, JwtKey, at) == Parsed(true, Map(t.claims))
      {
        assert Unexpired(t.claims, at);
      }
    }
  }

  /** When the library is sound, an issued token parses back under JwtKey as
      a valid token carrying exactly the issued claims, at every instant
      before its expiry. */
  lemma IssuedTokenVerifies(user: User, issuedAt: int, lib: Library, token: string, now: int)
    requires Sound(lib)
    requires GenerateToken(user, issuedAt, lib) == Some(token)
    requires now < issuedAt + TokenLifetime
    ensures lib.parse(token, JwtKey, now) == Parsed(true, Map(TokenClaims(user, issuedAt)))
  {
    var t := Token(HS256, TokenClaims(user, issuedAt));
    assert Unexpired(t.claims, now);
    assert lib.signedString(t, JwtKey).Some?;
  }
}

=== FILE: bcrypt.dfy ===
/** A symbolic stand-in for the bcrypt library the service calls
    (golang.org/x/crypto/bcrypt). A digest is kept as the term it was made
    from; no operation except comparison looks inside it. The salt is the
    randomness bcrypt draws; when drawing it fails, generation fails. */
module Bcrypt {
  import opened Wrappers

  type Salt = nat

  /** A stored password hash: either one bcrypt produced, or text that is
      not a readable bcrypt hash at all. */
  datatype Digest = Hashed(cost: nat, salt: Salt, secret: string) | Unreadable(text: string)

  /** The errors CompareHashAndPassword can return. */
  datatype CompareError = Mismatch | MalformedHash

  function GenerateFromPassword(password: string, cost: nat, random: Option<Salt>): (r: Option<Digest>)
    ensures r.Some? <==> random.Some?
    ensures r.Some? ==> r.value.Hashed? && r.value.cost == cost && r.value.salt == random.value
  {
    match random
    case None => None
    case Some(salt) => Some(Hashed(cost, salt, password))
  }

  /** `None` is Go's nil error: the password matches the hash. */
  function CompareHashAndPassword(hash: Digest, password: string): (err: Option<CompareError>)
    ensures hash.Unreadable? ==> err == Some(MalformedHash)
    ensures err.None? <==> hash.Hashed? && hash.secret == password
  {
    match hash
    case Unreadable(_) => Some(MalformedHash)
    case Hashed(_, _, secret) => if secret == password then None else Some(Mismatch)
  }
}

=== FILE: jwt.dfy ===
/** An abstract view of the JSON Web Token library (github.com/golang-jwt/jwt,
    RFC 7519) as the service uses it. The library is a pair of functions the
    model does not look into; what the service relies on is the predicate
    `Sound`, taken as a hypothesis wherever it is needed. */
module Jwt {
  import opened Wrappers

  /** A JSON value as it comes out of a decoded claims set. Numbers decode
      to float64; they are modelled as exact reals. */
  datatype Json = JString(s: string) | JNumber(n: real) | JBool(b: bool) | JNull | JComposite

  type MapClaims = map<string, Json>

  /** The dynamic type of `token.Claims`: a claim map or something else. */
  datatype Claims = Map(m: MapClaims) | NotMapClaims

  /** HMAC with SHA-256, section 3.2 of RFC 7518. */
  datatype SigningMethod = HS256

  /** An unsigned token, as `jwt.NewWithClaims` builds it. */
  datatype Token = Token(alg: SigningMethod, claims: MapClaims)

  /** What `jwt.Parse` returns: an error, or a token with its validity flag. */
  datatype ParseResult = ParseFailed | Parsed(valid: bool, claims: Claims)

  /** The two library entry points: `SignedString(key)` on a token, which may
      fail, and `Parse(text, keyFunc)` at a given Unix time, here with the key
      the key function returns. */
  datatype Library = Library(
    signedString: (Token, string) -> Option<string>,
    parse: (string, string, int) -> ParseResult)

  /** The `exp` claim is a number strictly after `now`. */
  predicate Unexpired(claims: MapClaims, now: int)
  {
    "exp" in claims && claims["exp"].JNumber? && (now as real) < claims["exp"].n
  }

  /** What the service assumes of the library: a token it signed with HS256
      parses back, under the same key and before its expiry, as a valid token
      carrying exactly the claims that were signed. Nothing is assumed at or
      after the expiry instant. */
  ghost predicate Sound(lib: Library)
  {
    forall t: Token, key: string, now: int
      | t.alg == HS256 && lib.signedString(t, key).Some? && Unexpired(t.claims, now) ::
        lib.parse(lib.signedString(t, key).value, key, now) == Parsed(true, Map(t.claims))
  }
}

=== FILE: manga_handlers.dfy ===
/** The catalogue handlers (internal/handlers/manga.go). Each handler is a
    function of the manga table and the request's inputs, returning the HTTP
    status, the table afterwards and the response body. The table is kept in
    listing order, newest first, so an insert puts the new row at the front.
    A request body that fails to bind is `None`; the id the database assigns
    to a new row is an input; the database's ILIKE pattern test is the
    parameter `like`. */
module MangaHandlers {
  import opened Wrappers
  import opened Strconv
  import opened Models
  import opened Http
  import opened Pagination
  import opened MangaQuery

  datatype CreateMangaRequest = CreateMangaRequest(
    title: string,
    description: string,
    author: string,
    artist: string,
    genres: seq<string>,
    status: string,
    year: int,
    chapters: int,
    price: Price,
    coverImage: string,
    stock: int)

  /** The `pagination` object of a listing. */
  datatype PageInfo = PageInfo(page: int, limit: int, total: int, totalPages: int)

  /** The response body, by kind; messages are not modelled. */
  datatype MangaBody =
    | Failure
    | Done
    | Listing(manga: seq<Manga>, pagination: PageInfo)
    | Item(entry: Manga)
    | Created(mangaId: int)

  datatype MangaReply = MangaReply(status: int, table: seq<Manga>, body: MangaBody)

  /** `ILIKE`: whether a text matches a `%`-pattern, as the database decides. */
  type Like = (string, string) -> bool

  // ----- The manga table -----

  /** The table invariant: ids, the primary key, are distinct. */
  predicate IdsDistinct(table: seq<Manga>)
  {
    forall i, j | 0 <= i < j < |table| :: table[i].id != table[j].id
  }

  /** The first row with the given id, active or not. */
  function FindManga(table: seq<Manga>, id: int): (r: Option<Manga>)
    ensures r.Some? ==> r.value in table && r.value.id == id
    ensures r.None? <==> forall m | m in table :: m.id != id
  {
    if |table| == 0 then None
    else if table[0].id == id then Some(table[0])
    else FindManga(table[1..], id)
  }

  /** The first active row with the given id. */
  function FindActive(table: seq<Manga>, id: int): (r: Option<Manga>)
    ensures r.Some? ==> r.value in table && r.value.id == id && r.value.isActive
    ensures r.None? <==> forall m | m in table :: !(m.id == id && m.isActive)
  {
    if |table| == 0 then None
    else if table[0].id == id && table[0].isActive then Some(table[0])
    else FindActive(table[1..], id)
  }

  /** `LIMIT limit OFFSET offset` over rows in order. */
  function Page(rows: seq<Manga>, limit: nat, offset: nat): (r: seq<Manga>)
    ensures |r| <= limit
    ensures offset >= |rows| ==> r == []
    ensures offset < |rows| ==> |r| == if offset + limit <= |rows| then limit else |rows| - offset
    ensures forall i | 0 <= i < |r| :: offset + i < |rows| && r[i] == rows[offset + i]
  {
    if offset >= |rows| then [] else rows[offset..if offset + limit <= |rows| then offset + limit else |rows|]
  }

  // ----- How the database reads a query -----

  /** Every filter's placeholder has an argument. */
  predicate IndicesIn(filters: seq<Filter>, args: seq<Arg>)
  {
    forall i | 0 <= i < |filters| :: 1 <= filters[i].index <= |args|
  }

  /** Whether a row passes one test, reading the test's argument. */
  predicate FilterHolds(m: Manga, f: Filter, args: seq<Arg>, like: Like)
    requires 1 <= f.index <= |args|
  {
    match args[f.index - 1]
    case TextArg(p) =>
      (match f.kind
       case TitleOrDescriptionLike => like(m.title, p) || like(m.description, p)
       case AuthorLike => like(m.author, p)
       case StatusEquals => m.status == p)
    case _ => false
  }

  /** Whether the WHERE clause selects a row. */
  predicate RowSelected(m: Manga, activeOnly: bool, filters: seq<Filter>, args: seq<Arg>, like: Like)
    requires IndicesIn(filters, args)
  {
    && (!activeOnly || m.isActive)
    && forall i | 0 <= i < |filters| :: FilterHolds(m, filters[i], args, like)
  }

  /** The rows the WHERE clause selects, in order. */
  function Where(table: seq<Manga>, activeOnly: bool, filters: seq<Filter>, args: seq<Arg>, like: Like): (r: seq<Manga>)
    requires IndicesIn(filters, args)
    ensures |r| <= |table|
    ensures forall m | m in r :: m in table && RowSelected(m, activeOnly, filters, args, like)
    ensures forall m | m in table && RowSelected(m, activeOnly, filters, args, like) :: m in r
  {
    if |table| == 0 then []
    else
      (if RowSelected(table[0], activeOnly, filters, args, like) then [table[0]] else [])
      + Where(table[1..], activeOnly, filters, args, like)
  }

  /** LIMIT and OFFSET bind non-negative integers. */
  predicate Runnable(q: ListQuery)
  {
    && IndicesIn(q.filters, q.args)
    && 1 <= q.limitIndex <= |q.args| && 1 <= q.offsetIndex <= |q.args|
    && q.args[q.limitIndex - 1].IntArg? && q.args[q.limitIndex - 1].i >= 0
    && q.args[q.offsetIndex - 1].IntArg? && q.args[q.offsetIndex - 1].i >= 0
  }

  /** The rows a listing query returns. */
  function RunList(q: ListQuery, table: seq<Manga>, like: Like): seq<Manga>
    requires Runnable(q)
  {
    Page(Where(table, q.activeOnly, q.filters, q.args, like), q.args[q.limitIndex - 1].i, q.args[q.offsetIndex - 1].i)
  }

  /** The number a count query returns. */
  function RunCount(q: CountQuery, table: seq<Manga>, like: Like): nat
    requires IndicesIn(q.filters, q.args)
  {
    |Where(table, q.activeOnly, q.filters, q.args, like)|
  }

  // ----- What the public listing means -----

  /** An entry the public listing should show: active, and passing every
      filter whose parameter is non-empty. */
  predicate Matches(m: Manga, search: string, author: string, status: string, like: Like)
  {
    && m.isActive
    && (search == "" || like(m.title, Containing(search)) || like(m.description, Containing(search)))
    && (author == "" || like(m.author, Containing(author)))
    && (status == "" || m.status == status)
  }

  /** The matching entries, in table order. */
  function Matching(table: seq<Manga>, search: string, author: string, status: string, like: Like): (r: seq<Manga>)
    ensures forall m | m in r :: m in table && Matches(m, search, author, status, like)
    ensures forall m | m in table && Matches(m, search, author, status, like) :: m in r
  {
    if |table| == 0 then []
    else
      (if Matches(table[0], search, author, status, like) then [table[0]] else [])
      + Matching(table[1..], search, author, status, like)
  }

  /** What one kind of test asks of a row, with the argument the listing
      binds to it. */
  predicate KindHolds(m: Manga, kind: FilterKind, search: string, author: string, status: string, like: Like)
  {
    match kind
    case TitleOrDescriptionLike => like(m.title, Containing(search)) || like(m.description, Containing(search))
    case AuthorLike => like(m.author, Containing(author))
    case StatusEquals => m.status == status
  }

  lemma AllKindsHold(m: Manga, search: string, author: string, status: string, like: Like)
    ensures (forall i | 0 <= i < |ExpectedKinds(search, author, status)| ::
               KindHolds(m, ExpectedKinds(search, author, status)[i], search, author, status, like))
        <==> Matches(m.(isActive := true), search, author, status, like)
  {
    var ek := ExpectedKinds(search, author, status);
    var s := if search != "" then 1 else 0;
    var a := if author != "" then 1 else 0;
    assert |ek| == s + a + (if status != "" then 1 else 0);
    assert search != "" ==> ek[0] == TitleOrDescriptionLike;
    assert author != "" ==> ek[s] == AuthorLike;
    assert status != "" ==> ek[s + a] == StatusEquals;
  }

  /** A test reads the argument built with it. */
  lemma FilterReadsItsArg(m: Manga, b: FilterBuilder, search: string, author: string, status: string, args: seq<Arg>, like: Like, i: nat)
    requires b == BuildFilters(search, author, status)
    requires |b.args| <= |args| && args[..|b.args|] == b.args
    requires i < |b.filters|
    ensures 1 <= b.filters[i].index <= |args|
    ensures FilterHolds(m, b.filters[i], args, like) == KindHolds(m, ExpectedKinds(search, author, status)[i], search, author, status, like)
  {
    var f := b.filters[i];
    assert f.index == i + 1;
    assert args[i] == b.args[i];
    assert b.args[i] == ExpectedArg(f.kind, search, author, status);
    assert f.kind == ExpectedKinds(search, author, status)[i];
  }

  /** Each test the public listing builds reads the argument built with it. */
  lemma FiltersReadTheirArgs(m: Manga, search: string, author: string, status: string, args: seq<Arg>, like: Like)
    requires var b := BuildFilters(search, author, status); |b.args| <= |args| && args[..|b.args|] == b.args
    ensures IndicesIn(BuildFilters(search, author, status).filters, args)
    ensures var b := BuildFilters(search, author, status);
      forall i | 0 <= i < |b.filters| ::
        FilterHolds(m, b.filters[i], args, like) == KindHolds(m, ExpectedKinds(search, author, status)[i], search, author, status, like)
  {
    var b := BuildFilters(search, author, status);
    forall i | 0 <= i < |b.filters|
      ensures 1 <= b.filters[i].index <= |args|
      ensures FilterHolds(m, b.filters[i], args, like) == KindHolds(m, ExpectedKinds(search, author, status)[i], search, author, status, like)
    {
      FilterReadsItsArg(m, b, search, author, status, args, like, i);
    }
  }

  /** The tests the public listing builds select exactly the matching
      entries, whatever arguments follow the filter arguments. */
  lemma PublicFiltersMean(m: Manga, search: string, author: string, status: string, args: seq<Arg>, like: Like)
    requires var b := BuildFilters(search, author, status); |b.args| <= |args| && args[..|b.args|] == b.args
    ensures IndicesIn(BuildFilters(search, author, status).filters, args)
    ensures RowSelected(m, true, BuildFilters(search, author, status).filters, args, like)
        <==> Matches(m, search, author, status, like)
  {
    FiltersReadTheirArgs(m, search, author, status, args, like);
    AllKindsHold(m, search, author, status, like);
  }

  /** The WHERE clause the public listing builds keeps exactly the matching
      entries. */
  lemma {:induction false} PublicWhereIsMatching(table: seq<Manga>, search: string, author: string, status: string, args: seq<Arg>, like: Like)
    requires var b := BuildFilters(search, author, status); |b.args| <= |args| && args[..|b.args|] == b.args
    ensures IndicesIn(BuildFilters(search, author, status).filters, args)
    ensures Where(table, true, BuildFilters(search, author, status).filters, args, like)
         == Matching(table, search, author, status, like)
  {
    var m: Manga :| true;
    PublicFiltersMean(m, search, author, status, args, like);
    if |table| > 0 {
      PublicFiltersMean(table[0], search, author, status, args, like);
      PublicWhereIsMatching(table[1..], search, author, status, args, like);
    }
  }

  /** With no tests and no activity condition every row is selected. */
  lemma {:induction false} WhereSelectsAll(table: seq<Manga>, args: seq<Arg>, like: Like)
    ensures Where(table, false, [], args, like) == table
  {
    if |table| > 0 {
      WhereSelectsAll(table[1..], args, like);
    }
  }

  // ----- Handlers -----

  /** The public count query counts exactly the matching entries. */
  lemma PublicCountIsMatching(table: seq<Manga>, search: string, author: string, status: string, like: Like)
    ensures var q := PublicCountQuery(search, author, status);
      && IndicesIn(q.filters, q.args)
      && RunCount(q, table, like) == |Matching(table, search, author, status, like)|
  {
    var q := PublicCountQuery(search, author, status);
    assert q.args == PublicListQuery(search, author, status, 0, 0).args[..|q.args|];
    PublicWhereIsMatching(table, search, author, status, q.args, like);
  }

  /** The public listing query returns the window of matching entries. */
  lemma PublicListIsPage(table: seq<Manga>, search: string, author: string, status: string, limit: nat, offset: nat, like: Like)
    ensures var q := PublicListQuery(search, author, status, limit, offset);
      && Runnable(q)
      && RunList(q, table, like) == Page(Matching(table, search, author, status, like), limit, offset)
  {
    var q := PublicListQuery(search, author, status, limit, offset);
    var cq := PublicCountQuery(search, author, status);
    assert q.args[..|cq.args|] == cq.args;
    PublicWhereIsMatching(table, search, author, status, q.args, like);
  }

  /** GET /api/manga: the window of matching active entries the page
      parameters select, and how many match in all. */
  function GetAllManga(table: seq<Manga>, pageParam: Option<string>, limitParam: Option<string>,
                       search: string, author: string, status: string, like: Like): (r: MangaReply)
    ensures r.status == StatusOK && r.table == table && r.body.Listing?
    ensures var w := Normalize(pageParam, limitParam);
      var matching := Matching(table, search, author, status, like);
      && r.body.pagination == PageInfo(w.page, w.limit, |matching|, TotalPages(|matching|, w.limit))
      && r.body.manga == Page(matching, w.limit, Offset(w))
  {
    var w := Normalize(pageParam, limitParam);
    var offset := Offset(w);
    var cq := PublicCountQuery(search, author, status);
    var lq := PublicListQuery(search, author, status, w.limit, offset);
    PublicCountIsMatching(table, search, author, status, like);
    PublicListIsPage(table, search, author, status, w.limit, offset, like);
    var total := RunCount(cq, table, like);
    MangaReply(StatusOK, table, Listing(RunList(lq, table, like), PageInfo(w.page, w.limit, total, TotalPages(total, w.limit))))
  }

  /** GET /api/admin/manga: the window of all entries, active or not. */
  function GetAllMangaAdmin(table: seq<Manga>, pageParam: Option<string>, limitParam: Option<string>, like: Like): (r: MangaReply)
    ensures r.status == StatusOK && r.table == table && r.body.Listing?
    ensures var w := Normalize(pageParam, limitParam);
      && r.body.pagination == PageInfo(w.page, w.limit, |table|, TotalPages(|table|, w.limit))
      && r.body.manga == Page(table, w.limit, Offset(w))
  {
    var w := Normalize(pageParam, limitParam);
    var q := AdminListQuery(w.limit, Offset(w));
    WhereSelectsAll(table, q.args, like);
    MangaReply(StatusOK, table, Listing(RunList(q, table, like), PageInfo(w.page, w.limit, |table|, TotalPages(|table|, w.limit))))
  }

  /** GET /api/manga/:id: inactive entries are not shown. */
  function GetMangaByID(table: seq<Manga>, idParam: string): (r: MangaReply)
    ensures r.table == table
    ensures r.status in {StatusOK, StatusBadRequest, StatusNotFound}
    ensures r.status == StatusBadRequest <==> !ParseInt64(idParam).Parsed?
    ensures r.status == StatusOK <==>
      ParseInt64(idParam).Parsed? && exists m | m in table :: m.id == ParseInt64(idParam).value && m.isActive
    ensures r.status == StatusOK ==>
      && r.body.Item? && r.body.entry in table
      && r.body.entry.id == ParseInt64(idParam).value && r.body.entry.isActive
  {
    match ParseInt64(idParam)
    case Parsed(id) =>
      (match FindActive(table, id)
       case None => MangaReply(StatusNotFound, table, Failure)
       case Some(m) => MangaReply(StatusOK, table, Item(m)))
    case _ => MangaReply(StatusBadRequest, table, Failure)
  }

  /** POST /api/admin/manga. Only the four known statuses are accepted; the
      new entry is active. */
  function CreateManga(table: seq<Manga>, bound: Option<CreateMangaRequest>, newId: int): (r: MangaReply)
    ensures bound.None? ==> r == MangaReply(StatusBadRequest, table, Failure)
    ensures bound.Some? ==> (r.status == StatusBadRequest <==> ParseStatus(bound.value.status).None?)
    ensures r.status == StatusInternalServerError <==>
      bound.Some? && ParseStatus(bound.value.status).Some? && exists m | m in table :: m.id == newId
    ensures r.status in {StatusCreated, StatusBadRequest, StatusInternalServerError}
    ensures bound.Some? && ParseStatus(bound.value.status).Some? && (forall m | m in table :: m.id != newId) ==>
      r.status == StatusCreated
    ensures r.status != StatusCreated ==> r.table == table && r.body == Failure
    ensures r.status == StatusCreated ==>
      && bound.Some?
      && |r.table| == |table| + 1
      && r.table[1..] == table
      && r.body == Created(newId)
      && var req := bound.value;
      && var m := r.table[0];
      && m.id == newId && m.isActive
      && m.title == req.title && m.description == req.description
      && m.author == req.author && m.artist == req.artist && m.genres == req.genres
      && m.status == req.status && ParseStatus(m.status).Some?
      && m.year == req.year && m.chapters == req.chapters && m.price == req.price
      && m.coverImage == req.coverImage && m.stock == req.stock
  {
    match bound
    case None => MangaReply(StatusBadRequest, table, Failure)
    case Some(req) =>
      if ParseStatus(req.status).None? then MangaReply(StatusBadRequest, table, Failure)
      // the insert violates the primary key when the assigned id is in use
      else if FindManga(table, newId).Some? then MangaReply(StatusInternalServerError, table, Failure)
      else
        var m := Manga(newId, req.title, req.description, req.author, req.artist, req.genres, req.status,
                       req.year, req.chapters, req.price, req.coverImage, req.stock, true);
        MangaReply(StatusCreated, [m] + table, Created(newId))
  }

  /** `UPDATE manga SET ... WHERE id = $w`, run on every row with the id. */
  function RunUpdate(table: seq<Manga>, id: int, st: UpdateStatement): (r: seq<Manga>)
    requires forall i | 0 <= i < |st.assignments| :: 1 <= st.assignments[i].index <= |st.args|
    ensures |r| == |table|
    ensures forall i | 0 <= i < |table| ::
      r[i] == if table[i].id == id then Apply(table[i], st.assignments, st.args) else table[i]
  {
    seq(|table|, i requires 0 <= i < |table| =>
      if table[i].id == id then Apply(table[i], st.assignments, st.args) else table[i])
  }

  /** Every row the update statement touches ends up as the merge. */
  lemma UpdateQueryMergesEveryRow(req: UpdateMangaRequest, id: int)
    requires ChangesSomething(req)
    ensures UpdateQuery(req, id).Some?
    ensures forall m: Manga ::
      Apply(m, UpdateQuery(req, id).value.assignments, UpdateQuery(req, id).value.args) == Merge(m, req)
  {
    forall m: Manga
      ensures Apply(m, UpdateQuery(req, id).value.assignments, UpdateQuery(req, id).value.args) == Merge(m, req)
    {
      UpdateQueryPerformsMerge(m, req, id);
    }
  }

  /** PUT /api/admin/manga/:id. The id is checked first, then the body,
      then existence (active or not), then that some field is set. */
  function UpdateManga(table: seq<Manga>, idParam: string, bound: Option<UpdateMangaRequest>): (r: MangaReply)
    ensures !ParseInt64(idParam).Parsed? ==> r == MangaReply(StatusBadRequest, table, Failure)
    ensures ParseInt64(idParam).Parsed? && bound.None? ==> r == MangaReply(StatusBadRequest, table, Failure)
    ensures ParseInt64(idParam).Parsed? && bound.Some? && (forall m | m in table :: m.id != ParseInt64(idParam).value) ==>
      r == MangaReply(StatusNotFound, table, Failure)
    ensures ParseInt64(idParam).Parsed? && bound.Some? && (exists m | m in table :: m.id == ParseInt64(idParam).value) ==>
      (r.status == StatusBadRequest <==> !ChangesSomething(bound.value))
    ensures ParseInt64(idParam).Parsed? && bound.Some? && ChangesSomething(bound.value)
            && (exists m | m in table :: m.id == ParseInt64(idParam).value) ==>
      r.status == StatusOK
    ensures r.status != StatusOK ==> r.table == table && r.body == Failure
    ensures r.status == StatusOK ==>
      && ParseInt64(idParam).Parsed? && bound.Some? && ChangesSomething(bound.value)
      && (exists m | m in table :: m.id == ParseInt64(idParam).value)
      && |r.table| == |table|
      && r.body == Done
      && forall i | 0 <= i < |table| ::
           r.table[i] == if table[i].id == ParseInt64(idParam).value then Merge(table[i], bound.value) else table[i]
  {
    match ParseInt64(idParam)
    case Parsed(id) =>
      (match bound
       case None => MangaReply(StatusBadRequest, table, Failure)
       case Some(req) =>
         if FindManga(table, id).None? then MangaReply(StatusNotFound, table, Failure)
         else
           match UpdateQuery(req, id)
           case None => MangaReply(StatusBadRequest, table, Failure)
           case Some(st) =>
             UpdateQueryMergesEveryRow(req, id);
             MangaReply(StatusOK, RunUpdate(table, id, st), Done))
    case _ => MangaReply(StatusBadRequest, table, Failure)
  }

  /** DELETE /api/admin/manga/:id: a soft delete that only clears is_active. */
  function DeleteManga(table: seq<Manga>, idParam: string): (r: MangaReply)
    ensures r.status in {StatusOK, StatusBadRequest, StatusNotFound}
    ensures r.status == StatusBadRequest <==> !ParseInt64(idParam).Parsed?
    ensures r.status == StatusNotFound <==>
      ParseInt64(idParam).Parsed? && forall m | m in table :: m.id != ParseInt64(idParam).value
    ensures r.status != StatusOK ==> r.table == table && r.body == Failure
    ensures r.status == StatusOK ==>
      && |r.table| == |table|
      && r.body == Done
      && forall i | 0 <= i < |table| ::
           r.table[i] == if table[i].id == ParseInt64(idParam).value then table[i].(isActive := false) else table[i]
  {
    match ParseInt64(idParam)
    case Parsed(id) =>
      if FindManga(table, id).None? then MangaReply(StatusNotFound, table, Failure)
      else
        var after := seq(|table|, i requires 0 <= i < |table| =>
          if table[i].id == id then table[i].(isActive := false) else table[i]);
        MangaReply(StatusOK, after, Done)
    case _ => MangaReply(StatusBadRequest, table, Failure)
  }

  // ----- Properties across handlers -----

  /** A soft-deleted entry disappears from GetMangaByID... */
  lemma SoftDeleteHides(table: seq<Manga>, idParam: string)
    requires DeleteManga(table, idParam).status == StatusOK
    ensures GetMangaByID(DeleteManga(table, idParam).table, idParam).status == StatusNotFound
  {
    var after := DeleteManga(table, idParam).table;
    var id := ParseInt64(idParam).value;
    forall m | m in after
      ensures !(m.id == id && m.isActive)
    {
      var j :| 0 <= j < |after| && after[j] == m;
    }
  }

  /** ... but keeps its row: it can still be deleted again, and updated. */
  lemma SoftDeleteKeeps(table: seq<Manga>, idParam: string, req: UpdateMangaRequest)
    requires DeleteManga(table, idParam).status == StatusOK
    ensures DeleteManga(DeleteManga(table, idParam).table, idParam).status == StatusOK
    ensures ChangesSomething(req) ==> UpdateManga(DeleteManga(table, idParam).table, idParam, Some(req)).status == StatusOK
  {
    var after := DeleteManga(table, idParam).table;
    var id := ParseInt64(idParam).value;
    var k :| 0 <= k < |table| && table[k].id == id;
    assert after[k].id == id;
    assert after[k] in after;
  }

  /** An update that sets is_active to true brings a soft-deleted entry back. */
  lemma UpdateCanReactivate(table: seq<Manga>, idParam: string, req: UpdateMangaRequest)
    requires UpdateManga(table, idParam, Some(req)).status == StatusOK
    requires req.isActive == Some(true)
    ensures GetMangaByID(UpdateManga(table, idParam, Some(req)).table, idParam).status == StatusOK
  {
    var after := UpdateManga(table, idParam, Some(req)).table;
    var id := ParseInt64(idParam).value;
    var k :| 0 <= k < |table| && table[k].id == id;
    assert after[k] == Merge(table[k], req);
    assert after[k] in after;
  }

  /** Creation refuses a status outside the four, but an update stores it. */
  lemma UpdateStoresUnknownStatus()
    ensures var m := Manga(1, "t", "", "a", "", [], "ongoing", 0, 0, ZeroPrice, "", 0, true);
      var req := UpdateMangaRequest("t", "", "a", "", None, "paused", 0, 0, ZeroPrice, "", 0, None);
      var create := CreateMangaRequest("t", "", "a", "", [], "paused", 0, 0, NonZeroPrice(1), "", 1);
      && ParseStatus("paused").None?
      && CreateManga([], Some(create), 1).status == StatusBadRequest
      && UpdateManga([m], "1", Some(req)).status == StatusOK
      && UpdateManga([m], "1", Some(req)).table == [m.(status := "paused")]
  {
    FormatThenParse(1);
    assert FormatInt(1) == "1";
    var m := Manga(1, "t", "", "a", "", [], "ongoing", 0, 0, ZeroPrice, "", 0, true);
    var req := UpdateMangaRequest("t", "", "a", "", None, "paused", 0, 0, ZeroPrice, "", 0, None);
    var r := UpdateManga([m], "1", Some(req));
    assert m in [m];
    assert r.table[0] == Merge(m, req);
  }

  /** Every handler that writes keeps ids distinct. */
  lemma CreatePreservesIds(table: seq<Manga>, bound: Option<CreateMangaRequest>, newId: int)
    requires IdsDistinct(table)
    ensures IdsDistinct(CreateManga(table, bound, newId).table)
  {
    var r := CreateManga(table, bound, newId);
    if r.status == StatusCreated {
      forall i, j | 0 <= i < j < |r.table|
        ensures r.table[i].id != r.table[j].id
      {
        if i == 0 {
          assert r.table[j] == table[j - 1];
          assert table[j - 1] in table;
        } else {
          assert r.table[i] == table[i - 1] && r.table[j] == table[j - 1];
        }
      }
    }
  }

  lemma UpdatePreservesIds(table: seq<Manga>, idParam: string, bound: Option<UpdateMangaRequest>)
    requires IdsDistinct(table)
    ensures IdsDistinct(UpdateManga(table, idParam, bound).table)
  {
    var r := UpdateManga(table, idParam, bound);
    if r.status == StatusOK {
      forall i | 0 <= i < |table|
        ensures r.table[i].id == table[i].id
      {}
    }
  }

  lemma DeletePreservesIds(table: seq<Manga>, idParam: string)
    requires IdsDistinct(table)
    ensures IdsDistinct(DeleteManga(table, idParam).table)
  {
    var r := DeleteManga(table, idParam);
    if r.status == StatusOK {
      forall i | 0 <= i < |table|
        ensures r.table[i].id == table[i].id
      {}
    }
  }
}

=== FILE: manga_query.dfy ===
/** The positional-placeholder queries the manga handlers build
    (internal/handlers/manga.go): the filtered listing with its count query,
    and the partial update. A query is kept as the tests and assignments it
    contains, each with its `$k` placeholder number, plus the argument list;
    the SQL text itself is not modelled. */
module MangaQuery {
  import opened Wrappers
  import opened Models

  /** An argument bound to a placeholder. */
  datatype Arg = TextArg(s: string) | IntArg(i: int) | GenresArg(g: seq<string>) | PriceArg(p: Price) | BoolArg(b: bool)

  // ----- Listing filters -----

  /** `(title ILIKE $k OR description ILIKE $k)`, `author ILIKE $k`, `status = $k`. */
  datatype FilterKind = TitleOrDescriptionLike | AuthorLike | StatusEquals

  datatype Filter = Filter(kind: FilterKind, index: nat)

  /** The placeholder numbers a filter's text mentions, in order: the search
      test mentions its one placeholder twice. */
  function Mentions(f: Filter): seq<nat>
  {
    if f.kind == TitleOrDescriptionLike then [f.index, f.index] else [f.index]
  }

  /** The listing's filters and arguments while they are being built, with
      the next free placeholder number. */
  datatype FilterBuilder = FilterBuilder(filters: seq<Filter>, args: seq<Arg>, next: nat)

  /** Placeholders are numbered consecutively from 1, one argument each. */
  predicate Consecutive(filters: seq<Filter>, args: seq<Arg>)
  {
    && |filters| == |args|
    && forall i | 0 <= i < |filters| :: filters[i].index == i + 1
  }

  /** The pattern an ILIKE test matches anywhere in the text. */
  function Containing(s: string): string
  {
    "%" + s + "%"
  }

  function AddFilter(b: FilterBuilder, when: bool, kind: FilterKind, arg: Arg): (r: FilterBuilder)
    requires Consecutive(b.filters, b.args) && b.next == |b.args| + 1
    ensures Consecutive(r.filters, r.args) && r.next == |r.args| + 1
    ensures r.filters == b.filters + (if when then [Filter(kind, b.next)] else [])
    ensures r.args == b.args + (if when then [arg] else [])
  {
    if when then FilterBuilder(b.filters + [Filter(kind, b.next)], b.args + [arg], b.next + 1) else b
  }

  /** Which filters a non-empty parameter adds, in the handler's order. */
  function ExpectedKinds(search: string, author: string, status: string): seq<FilterKind>
  {
    (if search != "" then [TitleOrDescriptionLike] else [])
    + (if author != "" then [AuthorLike] else [])
    + (if status != "" then [StatusEquals] else [])
  }

  /** The argument each kind of filter binds. */
  function ExpectedArg(kind: FilterKind, search: string, author: string, status: string): Arg
  {
    match kind
    case TitleOrDescriptionLike => TextArg(Containing(search))
    case AuthorLike => TextArg(Containing(author))
    case StatusEquals => TextArg(status)
  }

  function BuildFilters(search: string, author: string, status: string): (b: FilterBuilder)
    ensures Consecutive(b.filters, b.args) && b.next == |b.args| + 1
    ensures |b.filters| == |ExpectedKinds(search, author, status)|
    ensures forall i | 0 <= i < |b.filters| ::
      && b.filters[i].kind == ExpectedKinds(search, author, status)[i]
      && b.args[i] == ExpectedArg(b.filters[i].kind, search, author, status)
  {
    var b0 := FilterBuilder([], [], 1);
    var b1 := AddFilter(b0, search != "", TitleOrDescriptionLike, TextArg(Containing(search)));
    var b2 := AddFilter(b1, author != "", AuthorLike, TextArg(Containing(author)));
    AddFilter(b2, status != "", StatusEquals, TextArg(status))
  }

  /** `SELECT ... [WHERE is_active = true AND filters] ORDER BY created_at
      DESC LIMIT $l OFFSET $o`. */
  datatype ListQuery = ListQuery(activeOnly: bool, filters: seq<Filter>, limitIndex: nat, offsetIndex: nat, args: seq<Arg>)

  /** `SELECT COUNT(*) ...` with the same tests. */
  datatype CountQuery = CountQuery(activeOnly: bool, filters: seq<Filter>, args: seq<Arg>)

  /** Every placeholder number the text mentions, in order. */
  function FilterMentions(filters: seq<Filter>): seq<nat>
  {
    if |filters| == 0 then [] else FilterMentions(filters[..|filters| - 1]) + Mentions(filters[|filters| - 1])
  }

  function ListMentions(q: ListQuery): seq<nat>
  {
    FilterMentions(q.filters) + [q.limitIndex, q.offsetIndex]
  }

  /** A query is bound when every placeholder it mentions has an argument
      and every argument is mentioned. */
  predicate Bound(mentions: seq<nat>, args: seq<Arg>)
  {
    && (forall i | 0 <= i < |mentions| :: 1 <= mentions[i] <= |args|)
    && (forall k | 1 <= k <= |args| :: k in mentions)
  }

  lemma {:induction false} ConsecutiveFiltersBound(filters: seq<Filter>, args: seq<Arg>)
    requires Consecutive(filters, args)
    ensures Bound(FilterMentions(filters), args)
    decreases |filters|
  {
    if |filters| > 0 {
      var n := |filters| - 1;
      ConsecutiveFiltersBound(filters[..n], args[..n]);
      var before := FilterMentions(filters[..n]);
      assert FilterMentions(filters) == before + Mentions(filters[n]);
      forall k | 1 <= k <= |args|
        ensures k in FilterMentions(filters)
      {
        if k <= n {
          assert k in before;
        } else {
          assert Mentions(filters[n])[0] == k;
        }
      }
    }
  }

  /** A listing query over consecutively numbered filters is bound. */
  lemma ListQueryBound(q: ListQuery, filterArgs: seq<Arg>, limit: int, offset: int)
    requires Consecutive(q.filters, filterArgs)
    requires q.limitIndex == |filterArgs| + 1 && q.offsetIndex == |filterArgs| + 2
    requires q.args == filterArgs + [IntArg(limit), IntArg(offset)]
    ensures Bound(ListMentions(q), q.args)
  {
    ConsecutiveFiltersBound(q.filters, filterArgs);
    var before := FilterMentions(q.filters);
    var mentions := ListMentions(q);
    assert mentions == before + [q.limitIndex, q.offsetIndex];
    forall i | 0 <= i < |mentions|
      ensures 1 <= mentions[i] <= |q.args|
    {
      if i < |before| {
        assert mentions[i] == before[i];
      }
    }
    forall k | 1 <= k <= |q.args|
      ensures k in mentions
    {
      if k <= |filterArgs| {
        assert k in before;
        var j :| 0 <= j < |before| && before[j] == k;
        assert mentions[j] == k;
      } else if k == q.limitIndex {
        assert mentions[|before|] == k;
      } else {
        assert mentions[|before| + 1] == k;
      }
    }
  }

  /** The public listing: active entries only, the filters in order, then
      LIMIT and OFFSET on the next two placeholders. */
  function PublicListQuery(search: string, author: string, status: string, limit: int, offset: int): (q: ListQuery)
    ensures q.activeOnly
    ensures q.filters == BuildFilters(search, author, status).filters
    ensures q.limitIndex == |q.filters| + 1 && q.offsetIndex == |q.filters| + 2
    ensures |q.args| == |q.filters| + 2
    ensures q.args[q.limitIndex - 1] == IntArg(limit) && q.args[q.offsetIndex - 1] == IntArg(offset)
    ensures Bound(ListMentions(q), q.args)
  {
    var b := BuildFilters(search, author, status);
    var q := ListQuery(true, b.filters, b.next, b.next + 1, b.args + [IntArg(limit), IntArg(offset)]);
    ListQueryBound(q, b.args, limit, offset);
    q
  }

  /** The count query of the public listing: the same tests, bound to the
      arguments the listing binds before LIMIT and OFFSET. */
  function PublicCountQuery(search: string, author: string, status: string): (q: CountQuery)
    ensures q.activeOnly
    ensures Bound(FilterMentions(q.filters), q.args)
    ensures forall limit, offset ::
      && PublicListQuery(search, author, status, limit, offset).filters == q.filters
      && PublicListQuery(search, author, status, limit, offset).args == q.args + [IntArg(limit), IntArg(offset)]
  {
    var b := BuildFilters(search, author, status);
    ConsecutiveFiltersBound(b.filters, b.args);
    CountQuery(true, b.filters, b.args)
  }

  /** The administrators' listing: every entry, no filters, `LIMIT $1 OFFSET $2`. */
  function AdminListQuery(limit: int, offset: int): (q: ListQuery)
    ensures !q.activeOnly && q.filters == []
    ensures q.limitIndex == 1 && q.offsetIndex == 2 && q.args == [IntArg(limit), IntArg(offset)]
    ensures Bound(ListMentions(q), q.args)
  {
    var q := ListQuery(false, [], 1, 2, [IntArg(limit), IntArg(offset)]);
    ListQueryBound(q, [], limit, offset);
    q
  }

  // ----- Partial update -----

  datatype Column =
    | TitleCol | DescriptionCol | AuthorCol | ArtistCol | GenresCol | StatusCol
    | YearCol | ChaptersCol | PriceCol | CoverImageCol | StockCol | IsActiveCol

  /** The update body. A zero value (empty string, 0, zero price, absent
      genres, absent is_active) means "leave unchanged". */
  datatype UpdateMangaRequest = UpdateMangaRequest(
    title: string,
    description: string,
    author: string,
    artist: string,
    genres: Option<seq<string>>,
    status: string,
    year: int,
    chapters: int,
    price: Price,
    coverImage: string,
    stock: int,
    isActive: Option<bool>)

  /** `column = $index`. */
  datatype Assignment = Assignment(column: Column, index: nat)

  datatype SetBuilder = SetBuilder(assignments: seq<Assignment>, args: seq<Arg>, next: nat)

  predicate Numbered(b: SetBuilder)
  {
    && |b.assignments| == |b.args|
    && b.next == |b.args| + 1
    && forall i | 0 <= i < |b.assignments| :: b.assignments[i].index == i + 1
  }

  function AddAssignment(b: SetBuilder, when: bool, column: Column, arg: Arg): (r: SetBuilder)
    requires Numbered(b)
    ensures Numbered(r)
    ensures |r.assignments| == |b.assignments| + (if when then 1 else 0)
    ensures when ==> r.assignments == b.assignments + [Assignment(column, |b.args| + 1)] && r.args == b.args + [arg]
    ensures !when ==> r == b
  {
    if when then SetBuilder(b.assignments + [Assignment(column, b.next)], b.args + [arg], b.next + 1) else b
  }

  /** One `if field != zero` check of the handler: whether it fires, the
      column it sets and the argument it binds. */
  datatype FieldUpdate = FieldUpdate(when: bool, column: Column, arg: Arg)

  /** The handler's checks, in its fixed field order. */
  function FieldUpdates(req: UpdateMangaRequest): seq<FieldUpdate>
  {
    [
      FieldUpdate(req.title != "", TitleCol, TextArg(req.title)),
      FieldUpdate(req.description != "", DescriptionCol, TextArg(req.description)),
      FieldUpdate(req.author != "", AuthorCol, TextArg(req.author)),
      FieldUpdate(req.artist != "", ArtistCol, TextArg(req.artist)),
      FieldUpdate(req.genres.Some?, GenresCol, GenresArg(req.genres.GetOr([]))),
      FieldUpdate(req.status != "", StatusCol, TextArg(req.status)),
      FieldUpdate(req.year != 0, YearCol, IntArg(req.year)),
      FieldUpdate(req.chapters != 0, ChaptersCol, IntArg(req.chapters)),
      FieldUpdate(req.price != ZeroPrice, PriceCol, PriceArg(req.price)),
      FieldUpdate(req.coverImage != "", CoverImageCol, TextArg(req.coverImage)),
      FieldUpdate(req.stock != 0, StockCol, IntArg(req.stock)),
      FieldUpdate(req.isActive.Some?, IsActiveCol, BoolArg(req.isActive.GetOr(false)))
    ]
  }

  /** A request changes something exactly when one of the checks fires. */
  lemma NoCheckFires(req: UpdateMangaRequest)
    ensures |FieldUpdates(req)| == 12
    ensures (forall j | 0 <= j < 12 :: !FieldUpdates(req)[j].when) <==> !ChangesSomething(req)
  {
    var f := FieldUpdates(req);
    assert f[0].when == (req.title != "");
    assert f[1].when == (req.description != "");
    assert f[2].when == (req.author != "");
    assert f[3].when == (req.artist != "");
    assert f[4].when == (req.genres.Some?);
    assert f[5].when == (req.status != "");
    assert f[6].when == (req.year != 0);
    assert f[7].when == (req.chapters != 0);
    assert f[8].when == (req.price != ZeroPrice);
    assert f[9].when == (req.coverImage != "");
    assert f[10].when == (req.stock != 0);
    assert f[11].when == (req.isActive.Some?);
  }

  /** The checks `k..` that fire, in order. */
  function Fired(fields: seq<FieldUpdate>, k: nat): seq<FieldUpdate>
    requires k <= |fields|
    decreases |fields| - k
  {
    if k == |fields| then []
    else (if fields[k].when then [fields[k]] else []) + Fired(fields, k + 1)
  }

  /** Where a column's check stands in the handler's field order. */
  function Position(c: Column): nat
  {
    match c
    case TitleCol => 0
    case DescriptionCol => 1
    case AuthorCol => 2
    case ArtistCol => 3
    case GenresCol => 4
    case StatusCol => 5
    case YearCol => 6
    case ChaptersCol => 7
    case PriceCol => 8
    case CoverImageCol => 9
    case StockCol => 10
    case IsActiveCol => 11
  }

  /** Check `i` sets the column at position `i`: no column is checked twice. */
  lemma FieldsInColumnOrder(req: UpdateMangaRequest)
    ensures forall i | 0 <= i < |FieldUpdates(req)| :: Position(FieldUpdates(req)[i].column) == i
  {
  }

  /** The firing checks keep the order of the checks, so when that order
      names each column once, so do they. */
  lemma {:induction false} FiredInOrder(fields: seq<FieldUpdate>, k: nat)
    requires k <= |fields|
    requires forall i | 0 <= i < |fields| :: Position(fields[i].column) == i
    ensures forall i | 0 <= i < |Fired(fields, k)| :: k <= Position(Fired(fields, k)[i].column)
    ensures forall i, j | 0 <= i < j < |Fired(fields, k)| ::
      Position(Fired(fields, k)[i].column) < Position(Fired(fields, k)[j].column)
    decreases |fields| - k
  {
    if k < |fields| {
      FiredInOrder(fields, k + 1);
    }
  }

  /** The assignments a run of checks produces when numbering starts at
      `first`: one per check, in order, on consecutive placeholders. */
  function AssignmentsFor(fs: seq<FieldUpdate>, first: nat): seq<Assignment>
    decreases |fs|
  {
    if |fs| == 0 then [] else [Assignment(fs[0].column, first)] + AssignmentsFor(fs[1..], first + 1)
  }

  /** The arguments a run of checks binds, one per check, in order. */
  function ArgsFor(fs: seq<FieldUpdate>): seq<Arg>
    decreases |fs|
  {
    if |fs| == 0 then [] else [fs[0].arg] + ArgsFor(fs[1..])
  }

  lemma ForCons(f: FieldUpdate, fs: seq<FieldUpdate>, first: nat)
    ensures AssignmentsFor([f] + fs, first) == [Assignment(f.column, first)] + AssignmentsFor(fs, first + 1)
    ensures ArgsFor([f] + fs) == [f.arg] + ArgsFor(fs)
  {
    assert ([f] + fs)[1..] == fs;
  }

  /** Assignment `i` sets the column of check `i` from placeholder `first + i`. */
  lemma {:induction false} AssignmentsForAt(fs: seq<FieldUpdate>, first: nat)
    ensures |AssignmentsFor(fs, first)| == |fs|
    ensures forall i | 0 <= i < |fs| :: AssignmentsFor(fs, first)[i] == Assignment(fs[i].column, first + i)
    decreases |fs|
  {
    if |fs| > 0 {
      AssignmentsForAt(fs[1..], first + 1);
    }
  }

  /** The update sets no column twice. */
  lemma BuiltColumnsDistinct(req: UpdateMangaRequest)
    ensures var a := AssignmentsFor(Fired(FieldUpdates(req), 0), 1);
      forall i, j | 0 <= i < j < |a| :: a[i].column != a[j].column
  {
    FieldsInColumnOrder(req);
    FiredInOrder(FieldUpdates(req), 0);
    AssignmentsForAt(Fired(FieldUpdates(req), 0), 1);
  }

  /** Adds the assignments of checks `k..` in order. */
  function AddAll(b: SetBuilder, fields: seq<FieldUpdate>, k: nat): (r: SetBuilder)
    requires Numbered(b) && k <= |fields|
    ensures Numbered(r)
    ensures |r.assignments| >= |b.assignments|
    ensures |r.assignments| == |b.assignments| <==> forall j | k <= j < |fields| :: !fields[j].when
    decreases |fields| - k
  {
    if k == |fields| then b
    else AddAll(AddAssignment(b, fields[k].when, fields[k].column, fields[k].arg), fields, k + 1)
  }

  /** The builder's own assignments stay in front, and after them come
      exactly the firing checks' columns and arguments, numbered on from
      the builder's. */
  lemma {:induction false} AddAllAppendsFired(b: SetBuilder, fields: seq<FieldUpdate>, k: nat)
    requires Numbered(b) && k <= |fields|
    ensures AddAll(b, fields, k).assignments == b.assignments + AssignmentsFor(Fired(fields, k), b.next)
    ensures AddAll(b, fields, k).args == b.args + ArgsFor(Fired(fields, k))
    decreases |fields| - k
  {
    if k < |fields| {
      var f := fields[k];
      AddAllAppendsFired(AddAssignment(b, f.when, f.column, f.arg), fields, k + 1);
      var rest := Fired(fields, k + 1);
      if f.when {
        ForCons(f, rest, b.next);
        assert Fired(fields, k) == [f] + rest;
        assert (b.assignments + [Assignment(f.column, b.next)]) + AssignmentsFor(rest, b.next + 1)
            == b.assignments + ([Assignment(f.column, b.next)] + AssignmentsFor(rest, b.next + 1));
        assert (b.args + [f.arg]) + ArgsFor(rest) == b.args + ([f.arg] + ArgsFor(rest));
      } else {
        assert Fired(fields, k) == rest;
      }
    }
  }

  /** One assignment per non-zero field, in the fixed field order; none at
      all exactly when the request changes nothing. */
  function BuildAssignments(req: UpdateMangaRequest): (b: SetBuilder)
    ensures Numbered(b)
    ensures |b.assignments| == 0 <==> !ChangesSomething(req)
  {
    NoCheckFires(req);
    AddAll(SetBuilder([], [], 1), FieldUpdates(req), 0)
  }

  /** The built assignments are those of the firing checks, from `$1` on. */
  lemma BuiltAssignmentsAreFired(req: UpdateMangaRequest)
    ensures BuildAssignments(req).assignments == AssignmentsFor(Fired(FieldUpdates(req), 0), 1)
    ensures BuildAssignments(req).args == ArgsFor(Fired(FieldUpdates(req), 0))
  {
    AddAllAppendsFired(SetBuilder([], [], 1), FieldUpdates(req), 0);
  }

  /** `UPDATE manga SET assignments, updated_at = NOW() WHERE id = $w`. */
  datatype UpdateStatement = UpdateStatement(assignments: seq<Assignment>, setsUpdatedAt: bool, whereIndex: nat, args: seq<Arg>)

  /** Whether the request changes any field at all. */
  predicate ChangesSomething(req: UpdateMangaRequest)
  {
    || req.title != "" || req.description != "" || req.author != "" || req.artist != ""
    || req.genres.Some? || req.status != "" || req.year != 0 || req.chapters != 0
    || req.price != ZeroPrice || req.coverImage != "" || req.stock != 0 || req.isActive.Some?
  }

  /** The update statement for entry `id`, or `None` when there is nothing to
      set. `updated_at` takes no argument; the id binds the last placeholder. */
  function UpdateQuery(req: UpdateMangaRequest, id: int): (r: Option<UpdateStatement>)
    ensures r.None? <==> !ChangesSomething(req)
    ensures r.Some? ==>
      && r.value.setsUpdatedAt
      && |r.value.assignments| > 0
      && |r.value.args| == |r.value.assignments| + 1
      && r.value.whereIndex == |r.value.args|
      && r.value.args[r.value.whereIndex - 1] == IntArg(id)
      && forall i | 0 <= i < |r.value.assignments| :: r.value.assignments[i].index == i + 1
  {
    var b := BuildAssignments(req);
    if |b.assignments| == 0 then None
    else Some(UpdateStatement(b.assignments, true, b.next, b.args + [IntArg(id)]))
  }

  /** The statement sets exactly the columns of the checks that fire, in
      the handler's order, each once, binding the checks' values and then
      the id. */
  lemma UpdateQuerySetsFired(req: UpdateMangaRequest, id: int)
    requires ChangesSomething(req)
    ensures UpdateQuery(req, id).Some?
    ensures var st := UpdateQuery(req, id).value;
      var fired := Fired(FieldUpdates(req), 0);
      && st.assignments == AssignmentsFor(fired, 1)
      && st.args == ArgsFor(fired) + [IntArg(id)]
      && forall i, j | 0 <= i < j < |st.assignments| :: st.assignments[i].column != st.assignments[j].column
  {
    BuiltAssignmentsAreFired(req);
    BuiltColumnsDistinct(req);
  }

  /** What an assignment does to a row; an argument of the wrong type for
      its column leaves the row unchanged. */
  function SetColumn(m: Manga, column: Column, arg: Arg): Manga
  {
    match (column, arg)
    case (TitleCol, TextArg(s)) => m.(title := s)
    case (DescriptionCol, TextArg(s)) => m.(description := s)
    case (AuthorCol, TextArg(s)) => m.(author := s)
    case (ArtistCol, TextArg(s)) => m.(artist := s)
    case (GenresCol, GenresArg(g)) => m.(genres := g)
    case (StatusCol, TextArg(s)) => m.(status := s)
    case (YearCol, IntArg(n)) => m.(year := n)
    case (ChaptersCol, IntArg(n)) => m.(chapters := n)
    case (PriceCol, PriceArg(p)) => m.(price := p)
    case (CoverImageCol, TextArg(s)) => m.(coverImage := s)
    case (StockCol, IntArg(n)) => m.(stock := n)
    case (IsActiveCol, BoolArg(b)) => m.(isActive := b)
    case _ => m
  }

  /** Performs the assignments on a row, left to right, each taking its
      value from the argument its placeholder names. */
  function Apply(m: Manga, assignments: seq<Assignment>, args: seq<Arg>): Manga
    requires forall i | 0 <= i < |assignments| :: 1 <= assignments[i].index <= |args|
  {
    if |assignments| == 0 then m
    else
      var last := assignments[|assignments| - 1];
      SetColumn(Apply(m, assignments[..|assignments| - 1], args), last.column, args[last.index - 1])
  }

  /** The update as the request describes it, field by field: a non-zero
      value replaces the stored one, a zero value keeps it. */
  function Merge(m: Manga, req: UpdateMangaRequest): Manga
  {
    m.(title := if req.title != "" then req.title else m.title,
       description := if req.description != "" then req.description else m.description,
       author := if req.author != "" then req.author else m.author,
       artist := if req.artist != "" then req.artist else m.artist,
       genres := if req.genres.Some? then req.genres.value else m.genres,
       status := if req.status != "" then req.status else m.status,
       year := if req.year != 0 then req.year else m.year,
       chapters := if req.chapters != 0 then req.chapters else m.chapters,
       price := if req.price != ZeroPrice then req.price else m.price,
       coverImage := if req.coverImage != "" then req.coverImage else m.coverImage,
       stock := if req.stock != 0 then req.stock else m.stock,
       isActive := if req.isActive.Some? then req.isActive.value else m.isActive)
  }

  /** Extra arguments after the ones the assignments name change nothing. */
  lemma {:induction false} ApplyIgnoresLaterArgs(m: Manga, assignments: seq<Assignment>, args: seq<Arg>, more: seq<Arg>)
    requires forall i | 0 <= i < |assignments| :: 1 <= assignments[i].index <= |args|
    ensures Apply(m, assignments, args + more) == Apply(m, assignments, args)
    decreases |assignments|
  {
    if |assignments| > 0 {
      ApplyIgnoresLaterArgs(m, assignments[..|assignments| - 1], args, more);
    }
  }

  /** Adding an assignment adds one SetColumn step. */
  lemma AddAssignmentStep(m: Manga, b: SetBuilder, when: bool, column: Column, arg: Arg)
    requires Numbered(b)
    ensures Apply(m, AddAssignment(b, when, column, arg).assignments, AddAssignment(b, when, column, arg).args)
         == if when then SetColumn(Apply(m, b.assignments, b.args), column, arg) else Apply(m, b.assignments, b.args)
  {
    if when {
      var b' := AddAssignment(b, when, column, arg);
      assert b'.assignments[..|b'.assignments| - 1] == b.assignments;
      ApplyIgnoresLaterArgs(m, b.assignments, b.args, [arg]);
    }
  }

  /** What one check does to a row. */
  function StepRow(m: Manga, f: FieldUpdate): Manga
  {
    if f.when then SetColumn(m, f.column, f.arg) else m
  }

  /** What checks `k..` do to a row, in order. */
  function PerformAll(m: Manga, fields: seq<FieldUpdate>, k: nat): Manga
    requires k <= |fields|
    decreases |fields| - k
  {
    if k == |fields| then m else PerformAll(StepRow(m, fields[k]), fields, k + 1)
  }

  /** The statement built from checks `k..` does what the checks say. */
  lemma {:induction false} AddAllPerforms(m: Manga, b: SetBuilder, fields: seq<FieldUpdate>, k: nat)
    requires Numbered(b) && k <= |fields|
    ensures var r := AddAll(b, fields, k);
      Apply(m, r.assignments, r.args) == PerformAll(Apply(m, b.assignments, b.args), fields, k)
    decreases |fields| - k
  {
    if k < |fields| {
      var f := fields[k];
      AddAssignmentStep(m, b, f.when, f.column, f.arg);
      AddAllPerforms(m, AddAssignment(b, f.when, f.column, f.arg), fields, k + 1);
    }
  }

  /** Checks 0..2: title, description and author. */
  function TextStage(m: Manga, req: UpdateMangaRequest): Manga
  {
    m.(title := if req.title != "" then req.title else m.title,
       description := if req.description != "" then req.description else m.description,
       author := if req.author != "" then req.author else m.author)
  }

  /** Checks 3..5: artist, genres and status. */
  function DetailStage(m: Manga, req: UpdateMangaRequest): Manga
  {
    m.(artist := if req.artist != "" then req.artist else m.artist,
       genres := if req.genres.Some? then req.genres.value else m.genres,
       status := if req.status != "" then req.status else m.status)
  }

  /** Checks 6..8: year, chapters and price. */
  function NumberStage(m: Manga, req: UpdateMangaRequest): Manga
  {
    m.(year := if req.year != 0 then req.year else m.year,
       chapters := if req.chapters != 0 then req.chapters else m.chapters,
       price := if req.price != ZeroPrice then req.price else m.price)
  }

  /** Checks 9..11: cover image, stock and is_active. */
  function ListingStage(m: Manga, req: UpdateMangaRequest): Manga
  {
    m.(coverImage := if req.coverImage != "" then req.coverImage else m.coverImage,
       stock := if req.stock != 0 then req.stock else m.stock,
       isActive := if req.isActive.Some? then req.isActive.value else m.isActive)
  }

  /** Checks 0..2 replace their fields when they fire. */
  lemma TextFieldsPerformed(x: Manga, req: UpdateMangaRequest)
    ensures PerformAll(x, FieldUpdates(req), 0) == PerformAll(TextStage(x, req), FieldUpdates(req), 3)
  {
    var f := FieldUpdates(req);
    var x1 := x.(title := if req.title != "" then req.title else x.title);
    assert PerformAll(x, f, 0) == PerformAll(x1, f, 1);
    var x2 := x1.(description := if req.description != "" then req.description else x.description);
    assert PerformAll(x1, f, 1) == PerformAll(x2, f, 2);
    assert PerformAll(x2, f, 2) == PerformAll(TextStage(x, req), f, 3);
  }

  /** Checks 3..5 replace their fields when they fire. */
  lemma DetailFieldsPerformed(x: Manga, req: UpdateMangaRequest)
    ensures PerformAll(x, FieldUpdates(req), 3) == PerformAll(DetailStage(x, req), FieldUpdates(req), 6)
  {
    var f := FieldUpdates(req);
    var x1 := x.(artist := if req.artist != "" then req.artist else x.artist);
    assert PerformAll(x, f, 3) == PerformAll(x1, f, 4);
    var x2 := x1.(genres := if req.genres.Some? then req.genres.value else x.genres);
    assert PerformAll(x1, f, 4) == PerformAll(x2, f, 5);
    assert PerformAll(x2, f, 5) == PerformAll(DetailStage(x, req), f, 6);
  }

  /** Checks 6..8 replace their fields when they fire. */
  lemma NumberFieldsPerformed(x: Manga, req: UpdateMangaRequest)
    ensures PerformAll(x, FieldUpdates(req), 6) == PerformAll(NumberStage(x, req), FieldUpdates(req), 9)
  {
    var f := FieldUpdates(req);
    var x1 := x.(year := if req.year != 0 then req.year else x.year);
    assert PerformAll(x, f, 6) == PerformAll(x1, f, 7);
    var x2 := x1.(chapters := if req.chapters != 0 then req.chapters else x.chapters);
    assert PerformAll(x1, f, 7) == PerformAll(x2, f, 8);
    assert PerformAll(x2, f, 8) == PerformAll(NumberStage(x, req), f, 9);
  }

  /** Checks 9..11 replace their fields when they fire. */
  lemma ListingFieldsPerformed(x: Manga, req: UpdateMangaRequest)
    ensures PerformAll(x, FieldUpdates(req), 9) == PerformAll(ListingStage(x, req), FieldUpdates(req), 12)
  {
    var f := FieldUpdates(req);
    var x1 := x.(coverImage := if req.coverImage != "" then req.coverImage else x.coverImage);
    assert PerformAll(x, f, 9) == PerformAll(x1, f, 10);
    var x2 := x1.(stock := if req.stock != 0 then req.stock else x.stock);
    assert PerformAll(x1, f, 10) == PerformAll(x2, f, 11);
    assert PerformAll(x2, f, 11) == PerformAll(ListingStage(x, req), f, 12);
  }

  /** The four stages compose to the merge. */
  lemma StagesMerge(m: Manga, req: UpdateMangaRequest)
    ensures ListingStage(NumberStage(DetailStage(TextStage(m, req), req), req), req) == Merge(m, req)
  {
  }

  /** The checks, performed in order, give the field-by-field merge. */
  lemma PerformAllMerges(m: Manga, req: UpdateMangaRequest)
    ensures PerformAll(m, FieldUpdates(req), 0) == Merge(m, req)
  {
    var m1 := TextStage(m, req);
    TextFieldsPerformed(m, req);
    var m2 := DetailStage(m1, req);
    DetailFieldsPerformed(m1, req);
    var m3 := NumberStage(m2, req);
    NumberFieldsPerformed(m2, req);
    var m4 := ListingStage(m3, req);
    ListingFieldsPerformed(m3, req);
    assert |FieldUpdates(req)| == 12;
    assert PerformAll(m4, FieldUpdates(req), 12) == m4;
    StagesMerge(m, req);
  }

  /** Running the built update statement on a row gives exactly the merge
      the request describes. */
  lemma UpdateQueryPerformsMerge(m: Manga, req: UpdateMangaRequest, id: int)
    requires ChangesSomething(req)
    ensures UpdateQuery(req, id).Some?
    ensures var st := UpdateQuery(req, id).value;
      Apply(m, st.assignments, st.args) == Merge(m, req)
  {
    var b := BuildAssignments(req);
    BuiltPerformsMerge(m, req);
    ApplyIgnoresLaterArgs(m, b.assignments, b.args, [IntArg(id)]);
  }

  /** The built assignments, with their own arguments, perform the merge. */
  lemma BuiltPerformsMerge(m: Manga, req: UpdateMangaRequest)
    ensures var b := BuildAssignments(req);
      Apply(m, b.assignments, b.args) == Merge(m, req)
  {
    AddAllPerforms(m, SetBuilder([], [], 1), FieldUpdates(req), 0);
    PerformAllMerges(m, req);
  }
}

=== FILE: middleware.dfy ===
/** The authorization gate placed in front of protected route groups
    (internal/middleware/auth.go). It reads the Authorization header, verifies
    the token under JwtKey, reads the identity out of the claims, tests the
    role for membership in the route group's allow-set, and then either aborts
    the request or records the identity in the request context and lets it
    continue. */
module Middleware {
  import opened Wrappers
  import opened Jwt
  import opened Models
  import opened Auth
  import Http

  const BearerPrefix: string := "Bearer "

  predicate HasBearerPrefix(header: string)
  {
    |BearerPrefix| <= |header| && header[..|BearerPrefix|] == BearerPrefix
  }

  /** The token text: the header without its leading "Bearer " when it has
      one, the whole header otherwise. The prefix is optional. */
  function StripBearer(header: string): (token: string)
    ensures HasBearerPrefix(header) ==> BearerPrefix + token == header
    ensures !HasBearerPrefix(header) ==> token == header
  {
    if HasBearerPrefix(header) then header[|BearerPrefix|..] else header
  }

  /** Prefixing a token with "Bearer " and stripping gives the token back. */
  lemma StripBearerRoundTrip(token: string)
    ensures StripBearer(BearerPrefix + token) == token
  {
    assert (BearerPrefix + token)[..|BearerPrefix|] == BearerPrefix;
  }

  /** Go's conversion of a float64 to an integer: truncation toward zero. */
  function Truncate(x: real): (n: int)
    ensures 0.0 <= x ==> n as real <= x < n as real + 1.0
    ensures x < 0.0 ==> n as real - 1.0 < x <= n as real
  {
    if 0.0 <= x then x.Floor else -((-x).Floor)
  }

  /** The identity a token asserts: a user id and a role string. */
  datatype Identity = Identity(id: int, role: string)

  /** Reading the identity asserts that `role` is a string and `id` a
      number; when either assertion fails the request goroutine panics,
      which is `None` here. */
  function ReadIdentity(claims: MapClaims): (r: Option<Identity>)
    ensures r.Some? <==>
      && "role" in claims && claims["role"].JString?
      && "id" in claims && claims["id"].JNumber?
    ensures r.Some? ==> r.value.role == claims["role"].s && r.value.id == Truncate(claims["id"].n)
  {
    if "role" !in claims || !claims["role"].JString? then None
    else if "id" !in claims || !claims["id"].JNumber? then None
    else Some(Identity(Truncate(claims["id"].n), claims["role"].s))
  }

  /** The identity read from the claims of an issued token is the user's own
      id and role name. */
  lemma IssuedClaimsIdentity(user: User, now: int)
    ensures ReadIdentity(TokenClaims(user, now)) == Some(Identity(user.id, RoleName(user.role)))
  {
    assert (user.id as real).Floor == user.id;
  }

  /** Whether a role string equals the name of some role in the allow-set.
      This is plain membership; no role implies another. */
  function RoleAllowed(role: string, allowed: seq<Role>): (ok: bool)
    ensures ok <==> exists i | 0 <= i < |allowed| :: RoleName(allowed[i]) == role
  {
    if |allowed| == 0 then false
    else RoleName(allowed[0]) == role || RoleAllowed(role, allowed[1..])
  }

  /** Why the gate refused a request. */
  datatype Rejection = MissingCredential | InvalidToken | InvalidClaims | InsufficientRole

  function RejectionStatus(reason: Rejection): (status: int)
    ensures status == Http.StatusForbidden <==> reason == InsufficientRole
    ensures status == Http.StatusUnauthorized <==> reason != InsufficientRole
  {
    if reason == InsufficientRole then Http.StatusForbidden else Http.StatusUnauthorized
  }

  /** Values the gate stores in the request context. */
  datatype CtxValue = UserIdValue(id: int) | RoleValue(role: string) | OtherValue

  type Keys = map<string, CtxValue>

  /** The context after the gate records an identity under "userID" and
      "userRole". */
  function Annotate(keys: Keys, who: Identity): (after: Keys)
    ensures after.Keys == keys.Keys + {"userID", "userRole"}
    ensures after["userID"] == UserIdValue(who.id) && after["userRole"] == RoleValue(who.role)
    ensures forall k | k in keys && k != "userID" && k != "userRole" :: after[k] == keys[k]
  {
    keys["userID" := UserIdValue(who.id)]["userRole" := RoleValue(who.role)]
  }

  /** The gate's decision. `Continue` lets the handler chain proceed with
      the annotated context; `Abort` answers with the rejection's status and
      stops the chain; `Crash` is a panic while reading the claims. */
  datatype GateResult = Continue(keys: Keys) | Abort(reason: Rejection, keys: Keys) | Crash

  /** The claims of the token in the header, when it verifies under JwtKey at
      `now` and its claims are a claim map. */
  function VerifiedClaims(header: string, now: int, lib: Library): Option<MapClaims>
  {
    var parsed := lib.parse(StripBearer(header), JwtKey, now);
    if parsed.ParseFailed? || !parsed.valid || parsed.claims.NotMapClaims? then None
    else Some(parsed.claims.m)
  }

  function AuthRequired(allowed: seq<Role>, header: string, now: int, lib: Library, keys: Keys): (r: GateResult)
    ensures header == "" ==> r == Abort(MissingCredential, keys)
    ensures r.Abort? ==> r.keys == keys
    ensures r.Continue? ==>
      && header != ""
      && VerifiedClaims(header, now, lib).Some?
      && ReadIdentity(VerifiedClaims(header, now, lib).value).Some?
      && var who := ReadIdentity(VerifiedClaims(header, now, lib).value).value;
      && RoleAllowed(who.role, allowed)
      && r.keys == Annotate(keys, who)
  {
    if header == "" then Abort(MissingCredential, keys)
    else
      var parsed := lib.parse(StripBearer(header), JwtKey, now);
      if parsed.ParseFailed? || !parsed.valid then Abort(InvalidToken, keys)
      else if parsed.claims.NotMapClaims? then Abort(InvalidClaims, keys)
      else
        match ReadIdentity(parsed.claims.m)
        case None => Crash
        case Some(who) =>
          if !RoleAllowed(who.role, allowed) then Abort(InsufficientRole, keys)
          else Continue(Annotate(keys, who))
  }

  /** A token that does not parse, or parses as invalid, is refused with 401. */
  lemma InvalidTokenUnauthorized(allowed: seq<Role>, header: string, now: int, lib: Library, keys: Keys)
    requires header != ""
    requires lib.parse(StripBearer(header), JwtKey, now).ParseFailed?
          || !lib.parse(StripBearer(header), JwtKey, now).valid
    ensures AuthRequired(allowed, header, now, lib, keys) == Abort(InvalidToken, keys)
    ensures RejectionStatus(InvalidToken) == Http.StatusUnauthorized
  {}

  /** A valid token whose claims are not a claim map is refused with 401. */
  lemma NonMapClaimsUnauthorized(allowed: seq<Role>, header: string, now: int, lib: Library, keys: Keys)
    requires header != ""
    requires lib.parse(StripBearer(header), JwtKey, now) == Parsed(true, NotMapClaims)
    ensures AuthRequired(allowed, header, now, lib, keys) == Abort(InvalidClaims, keys)
  {}

  /** Once the token verifies and the identity reads, the request continues
      exactly when its role is a member of the allow-set, and is refused
      with 403 otherwise. */
  lemma ContinuesIffRoleAllowed(allowed: seq<Role>, header: string, now: int, lib: Library, keys: Keys, who: Identity)
    requires header != ""
    requires VerifiedClaims(header, now, lib).Some?
    requires ReadIdentity(VerifiedClaims(header, now, lib).value) == Some(who)
    ensures AuthRequired(allowed, header, now, lib, keys).Continue? <==>
      exists i | 0 <= i < |allowed| :: RoleName(allowed[i]) == who.role
    ensures !AuthRequired(allowed, header, now, lib, keys).Continue? ==>
      AuthRequired(allowed, header, now, lib, keys) == Abort(InsufficientRole, keys)
  {}

  /** A verified token whose role string is none of the three role names is
      refused with 403, whatever the allow-set: the string is not rejected
      when read, it simply matches no member. */
  lemma UnrecognisedRoleForbidden(allowed: seq<Role>, header: string, now: int, lib: Library, keys: Keys, who: Identity)
    requires header != ""
    requires VerifiedClaims(header, now, lib).Some?
    requires ReadIdentity(VerifiedClaims(header, now, lib).value) == Some(who)
    requires !IsRoleName(who.role)
    ensures AuthRequired(allowed, header, now, lib, keys) == Abort(InsufficientRole, keys)
  {
    ContinuesIffRoleAllowed(allowed, header, now, lib, keys, who);
    RoleNamesAreExactlyThree();
  }

  /** A verified token whose `role` claim is missing or not a string, or
      whose `id` claim is missing or not a number, crashes the request rather
      than being refused with 401 or 403. */
  lemma MalformedIdentityCrashes(allowed: seq<Role>, header: string, now: int, lib: Library, keys: Keys)
    requires header != ""
    requires VerifiedClaims(header, now, lib).Some?
    requires var c := VerifiedClaims(header, now, lib).value;
      !("role" in c && c["role"].JString?) || !("id" in c && c["id"].JNumber?)
    ensures AuthRequired(allowed, header, now, lib, keys) == Crash
  {}

  /** Roles are not ranked: a higher role is refused by an allow-set that
      names only a lower one. */
  lemma NoRoleHierarchy(header: string, now: int, lib: Library, keys: Keys, id: int)
    requires header != ""
    requires VerifiedClaims(header, now, lib).Some?
    requires ReadIdentity(VerifiedClaims(header, now, lib).value) == Some(Identity(id, RoleName(SuperAdminRole)))
    ensures AuthRequired([UserRole], header, now, lib, keys) == Abort(InsufficientRole, keys)
    ensures AuthRequired([AdminRole], header, now, lib, keys) == Abort(InsufficientRole, keys)
  {
    RoleNamesAreExactlyThree();
  }

  /** A token issued to a user, presented before it expires with the
      "Bearer " prefix (or without it, when the bare token cannot be
      mistaken for a prefixed one), lets the request through a gate whose
      allow-set holds the user's role, with exactly the user's id and role
      recorded in the context. */
  lemma IssuedTokenPassesGate(
    user: User, issuedAt: int, lib: Library, token: string,
    allowed: seq<Role>, now: int, keys: Keys)
    requires Sound(lib)
    requires GenerateToken(user, issuedAt, lib) == Some(token)
    requires now < issuedAt + TokenLifetime
    requires user.role in allowed
    ensures AuthRequired(allowed, BearerPrefix + token, now, lib, keys)
         == Continue(Annotate(keys, Identity(user.id, RoleName(user.role))))
    ensures token != "" && !HasBearerPrefix(token) ==>
      AuthRequired(allowed, token, now, lib, keys)
        == Continue(Annotate(keys, Identity(user.id, RoleName(user.role))))
  {
    StripBearerRoundTrip(token);
    IssuedTokenVerifies(user, issuedAt, lib, token, now);
    IssuedClaimsIdentity(user, issuedAt);
    var i :| 0 <= i < |allowed| && allowed[i] == user.role;
    assert RoleName(allowed[i]) == RoleName(user.role);
  }
}

=== FILE: models.dfy ===
/** The records the handlers read and write: users with their roles, and
    manga entries with their publication status. */
module Models {
  import opened Wrappers
  import opened Bcrypt

  /** The three named roles. In the service a role is a string type with
      three named constants; a role string read from a token is compared as a
      string, so strings outside these three are handled where tokens are read. */
  datatype Role = SuperAdminRole | AdminRole | UserRole

  function RoleName(r: Role): string
  {
    match r
    case SuperAdminRole => "super_admin"
    case AdminRole => "admin"
    case UserRole => "user"
  }

  predicate IsRoleName(s: string)
  {
    s == "super_admin" || s == "admin" || s == "user"
  }

  /** The role constants are exactly the three strings, and distinct roles
      have distinct names. */
  lemma RoleNamesAreExactlyThree()
    ensures forall r: Role :: IsRoleName(RoleName(r))
    ensures forall s | IsRoleName(s) :: exists r: Role :: RoleName(r) == s
    ensures forall a: Role, b: Role :: RoleName(a) == RoleName(b) ==> a == b
  {
    assert RoleName(SuperAdminRole) == "super_admin";
    assert RoleName(AdminRole) == "admin";
    assert RoleName(UserRole) == "user";
  }

  /** A row of the users table. The creation and update timestamps are not
      modelled. */
  datatype User = User(id: int, username: string, email: string, password: Digest, role: Role, isBlocked: bool)

  /** A user as it appears in a JSON response: the password field is tagged
      to be skipped by the encoder. */
  datatype PublicUser = PublicUser(id: int, username: string, email: string, role: Role, isBlocked: bool)

  function Public(u: User): (p: PublicUser)
    ensures p.id == u.id && p.username == u.username && p.email == u.email
    ensures p.role == u.role && p.isBlocked == u.isBlocked
  {
    PublicUser(u.id, u.username, u.email, u.role, u.isBlocked)
  }

  /** Two users look the same in JSON exactly when they differ at most in
      their password hash. */
  lemma PublicViewHidesOnlyPassword(u: User, v: User)
    ensures Public(u) == Public(v) <==> u.(password := v.password) == v
  {}

  /** The four publication states a manga entry may be created with. */
  datatype MangaStatus = Ongoing | Completed | Announced | Cancelled

  function StatusName(s: MangaStatus): string
  {
    match s
    case Ongoing => "ongoing"
    case Completed => "completed"
    case Announced => "announced"
    case Cancelled => "cancelled"
  }

  /** The status a string names, if it names one. */
  function ParseStatus(s: string): (r: Option<MangaStatus>)
    ensures r.Some? ==> StatusName(r.value) == s
    ensures r.None? ==> forall st: MangaStatus :: StatusName(st) != s
  {
    if s == "ongoing" then Some(Ongoing)
    else if s == "completed" then Some(Completed)
    else if s == "announced" then Some(Announced)
    else if s == "cancelled" then Some(Cancelled)
    else None
  }

  /** A price is a float64; the handlers only ever ask whether it is zero,
      so any other price is an opaque value. */
  datatype Price = ZeroPrice | NonZeroPrice(repr: int)

  /** A row of the manga table. The timestamps are not modelled; `status` is
      the stored string, which need not name a MangaStatus. */
  datatype Manga = Manga(
    id: int,
    title: string,
    description: string,
    author: string,
    artist: string,
    genres: seq<string>,
    status: string,
    year: int,
    chapters: int,
    price: Price,
    coverImage: string,
    stock: int,
    isActive: bool)
}

=== FILE: pagination.dfy ===
/** Page-window arithmetic of the two manga listings
    (internal/handlers/manga.go, GetAllManga and GetAllMangaAdmin). */
module Pagination {
  import opened Wrappers
  import opened Strconv

  const DefaultPage: int := 1
  const DefaultLimit: int := 20
  const MaxLimit: int := 100

  /** `c.DefaultQuery(key, default)`: the parameter's text when it is
      present, even if empty; the default text when it is absent. */
  function QueryOr(param: Option<string>, default: string): string
  {
    param.GetOr(default)
  }

  /** A normalised page request: which page, and how many entries per page. */
  datatype Window = Window(page: int, limit: int)

  predicate Normalised(w: Window)
  {
    w.page >= 1 && 1 <= w.limit <= MaxLimit
  }

  /** Reads `page` and `limit` with Atoi, discarding its error, and replaces
      a page below 1 by 1 and a limit outside 1..100 by 20. */
  function Normalize(pageParam: Option<string>, limitParam: Option<string>): (w: Window)
    ensures Normalised(w)
    ensures ParseInt64(QueryOr(pageParam, "1")).SyntaxError? ==> w.page == DefaultPage
    ensures ParseInt64(QueryOr(limitParam, "20")).SyntaxError? ==> w.limit == DefaultLimit
  {
    var page := ParseInt64(QueryOr(pageParam, "1")).ValueIgnoringError();
    var limit := ParseInt64(QueryOr(limitParam, "20")).ValueIgnoringError();
    Window(if page < 1 then DefaultPage else page,
           if limit < 1 || limit > MaxLimit then DefaultLimit else limit)
  }

  /** Absent parameters give page 1 of 20 entries. */
  lemma NormalizeDefaults()
    ensures Normalize(None, None) == Window(DefaultPage, DefaultLimit)
  {
    FormatThenParse(1);
    FormatThenParse(20);
    assert FormatInt(1) == "1";
    assert FormatInt(20) == "20";
  }

  /** A page of at least 1 and a limit within 1..100, written in decimal,
      are taken as they are; any other limit, and any page below 1, fall
      back to the defaults. */
  lemma NormalizeHonoursValidValues(page: int, limit: int)
    requires IsInt64(page)
    requires IsInt64(limit)
    ensures Normalize(Some(FormatInt(page)), Some(FormatInt(limit))).page
         == if page >= 1 then page else DefaultPage
    ensures Normalize(Some(FormatInt(page)), Some(FormatInt(limit))).limit
         == if 1 <= limit <= MaxLimit then limit else DefaultLimit
  {
    FormatThenParse(page);
    FormatThenParse(limit);
  }

  /** A page number too large for 64 bits is not refused: Atoi reports a
      range error together with MaxInt64, the error is discarded, and the
      page becomes MaxInt64. */
  lemma OverlongPageBecomesMaxInt64(n: nat, limitParam: Option<string>)
    requires MaxInt64 < n <= MaxUint64
    ensures Normalize(Some(NatDigits(n)), limitParam).page == MaxInt64
  {
    ScanDigits(n);
  }

  /** Go's int is 64 bits wide and its arithmetic wraps around. */
  function Wrap64(x: int): (r: int)
    ensures IsInt64(r)
    ensures IsInt64(x) ==> r == x
    ensures (r - x) % 0x1_0000_0000_0000_0000 == 0
  {
    (x - MinInt64) % 0x1_0000_0000_0000_0000 + MinInt64
  }

  /** The offset as the listings compute it: `(page - 1) * limit` in 64-bit
      arithmetic. */
  function OffsetAsWritten(w: Window): (offset: int)
    ensures IsInt64(offset)
    ensures IsInt64((w.page - 1) * w.limit) ==> offset == (w.page - 1) * w.limit
  {
    Wrap64((w.page - 1) * w.limit)
  }

  /** A valid 64-bit page number whose offset, at the default limit, is past
      MaxInt64. */
  const OverflowPage: int := 461168601842738792

  /** With the default limit, page 461168601842738792 (a valid 64-bit page
      number) makes the product pass MaxInt64, and the offset sent to the
      database is negative. */
  lemma OffsetAsWrittenWrapsNegative()
    ensures Normalize(Some(FormatInt(OverflowPage)), None) == Window(OverflowPage, DefaultLimit)
    ensures OffsetAsWritten(Window(OverflowPage, DefaultLimit)) < 0
  {
    PageKeptAtDefaultLimit(OverflowPage);
    OverflowPageWraps();
  }

  /** Any valid page number, with the limit left out, is kept at the
      default limit. */
  lemma PageKeptAtDefaultLimit(page: int)
    requires 1 <= page <= MaxInt64
    ensures Normalize(Some(FormatInt(page)), None) == Window(page, DefaultLimit)
  {
    NormalizeHonoursValidValues(page, 20);
    assert QueryOr(None, "20") == FormatInt(20) by {
      FormatThenParse(20);
    }
  }

  lemma OverflowPageWraps()
    ensures OffsetAsWritten(Window(OverflowPage, DefaultLimit)) == -9223372036854775796
  {
    var x := (OverflowPage - 1) * DefaultLimit;
    assert x == 9223372036854775820;
    assert (x - MinInt64) % 0x1_0000_0000_0000_0000 == 12;
  }

  /** A valid 64-bit page number whose offset, at 64 entries per page, is
      exactly 2^64. */
  const WrapPage: int := 288230376151711745

  /** At 64 entries per page, page 288230376151711745 makes the product
      exactly 2^64, which wraps to 0: the database is asked for the same
      rows as page 1, where the intended offset is past any table. */
  lemma OffsetAsWrittenWrapsToZero()
    ensures Normalize(Some(FormatInt(WrapPage)), Some(FormatInt(64))) == Window(WrapPage, 64)
    ensures Offset(Window(WrapPage, 64)) == 0x1_0000_0000_0000_0000
    ensures OffsetAsWritten(Window(WrapPage, 64)) == 0 == Offset(Window(1, 64))
  {
    PageAndLimitKept(WrapPage, 64);
    WrapPageWraps();
  }

  /** A valid page number and a limit within 1..100 are both kept. */
  lemma PageAndLimitKept(page: int, limit: int)
    requires 1 <= page <= MaxInt64
    requires 1 <= limit <= MaxLimit
    ensures Normalize(Some(FormatInt(page)), Some(FormatInt(limit))) == Window(page, limit)
  {
    NormalizeHonoursValidValues(page, limit);
  }

  lemma WrapPageWraps()
    ensures OffsetAsWritten(Window(WrapPage, 64)) == 0
  {
    var x := (WrapPage - 1) * 64;
    assert x == 0x1_0000_0000_0000_0000;
    assert (x - MinInt64) % 0x1_0000_0000_0000_0000 == 0x8000_0000_0000_0000;
  }

  /** The offset as intended: the number of entries on the pages before
      this one, never negative. */
  function Offset(w: Window): (offset: nat)
    requires Normalised(w)
    ensures offset % w.limit == 0 && offset / w.limit == w.page - 1
  {
    MultipleDivides(w.page - 1, w.limit);
    (w.page - 1) * w.limit
  }

  lemma MultiplyMonotone(k: int, d: int)
    requires 1 <= d && 1 <= k
    ensures d <= d * k
  {}

  lemma MultipleDivides(q: nat, d: int)
    requires 1 <= d
    ensures (q * d) % d == 0 && (q * d) / d == q
  {
    var a := (q * d) / d;
    var b := (q * d) % d;
    assert q * d == d * a + b;
    assert d * (q - a) == b;
    if q - a >= 1 {
      MultiplyMonotone(q - a, d);
    } else if q - a <= -1 {
      MultiplyMonotone(a - q, d);
    }
  }

  /** Consecutive pages tile the listing: each starts where the previous
      one ends. */
  lemma OffsetsTile(w: Window)
    requires Normalised(w)
    ensures Offset(w.(page := w.page + 1)) == Offset(w) + w.limit
    ensures w.page == 1 ==> Offset(w) == 0
  {}

  /** The page count reported with a listing: `(total + limit - 1) / limit`,
      the least number of pages of `limit` entries holding `total` entries. */
  function TotalPages(total: nat, limit: int): (pages: nat)
    requires 1 <= limit
    ensures total <= pages * limit
    ensures pages == 0 || (pages - 1) * limit < total
    ensures pages == 0 <==> total == 0
  {
    (total + limit - 1) / limit
  }
}

=== FILE: server.dfy ===
/** The route table and the request pipeline in front of the handlers
    (cmd/server/main.go): the CORS middleware answers every preflight
    request, public routes reach their handler directly, and each protected
    group runs the authorization gate with its own allow-set first. */
module Server {
  import opened Wrappers
  import opened Bcrypt
  import opened Jwt
  import opened Models
  import opened Auth
  import opened Middleware
  import opened Http
  import UserHandlers

  datatype Method = GET | POST | PUT | DELETE | OPTIONS

  /** Every registered route. */
  datatype Endpoint =
    | RegisterRoute | LoginRoute | ListMangaRoute | ShowMangaRoute
    | ProfileRoute | PasswordRoute
    | ListUsersRoute | BlockUserRoute | DeleteUserRoute
    | ListMangaAdminRoute | CreateMangaRoute | UpdateMangaRoute | DeleteMangaRoute

  /** The route groups; `Public` routes are registered on the engine itself. */
  datatype Group = Public | UserArea | AdminArea | SuperArea

  /** The method and path each route is registered under. */
  function Route(e: Endpoint): (Method, string)
  {
    match e
    case RegisterRoute => (POST, "/api/register")
    case LoginRoute => (POST, "/api/login")
    case ListMangaRoute => (GET, "/api/manga")
    case ShowMangaRoute => (GET, "/api/manga/:id")
    case ProfileRoute => (PUT, "/api/user/profile")
    case PasswordRoute => (PUT, "/api/user/password")
    case ListUsersRoute => (GET, "/api/admin/users")
    case BlockUserRoute => (PUT, "/api/admin/users/:id/block")
    case DeleteUserRoute => (DELETE, "/api/admin/users/:id")
    case ListMangaAdminRoute => (GET, "/api/admin/manga")
    case CreateMangaRoute => (POST, "/api/admin/manga")
    case UpdateMangaRoute => (PUT, "/api/admin/manga/:id")
    case DeleteMangaRoute => (DELETE, "/api/admin/manga/:id")
  }

  /** The path prefix of a group. */
  function GroupPrefix(g: Group): string
  {
    match g
    case Public => "/api/"
    case UserArea => "/api/user/"
    case AdminArea => "/api/admin/"
    case SuperArea => "/api/super/"
  }

  /** The group each route is registered in. */
  function GroupOf(e: Endpoint): (g: Group)
    ensures g != SuperArea
    ensures g == Public <==> e in {RegisterRoute, LoginRoute, ListMangaRoute, ShowMangaRoute}
    ensures g == UserArea <==> e in {ProfileRoute, PasswordRoute}
  {
    match e
    case RegisterRoute => Public
    case LoginRoute => Public
    case ListMangaRoute => Public
    case ShowMangaRoute => Public
    case ProfileRoute => UserArea
    case PasswordRoute => UserArea
    case _ => AdminArea
  }

  /** The allow-set a group's gate is built with; public routes have no gate. */
  function Gate(g: Group): (allowed: Option<seq<Role>>)
    ensures allowed.None? <==> g == Public
  {
    match g
    case Public => None
    case UserArea => Some([UserRole, AdminRole, SuperAdminRole])
    case AdminArea => Some([AdminRole, SuperAdminRole])
    case SuperArea => Some([SuperAdminRole])
  }

  /** No two routes share a method and a path. */
  lemma RoutesDistinct(e1: Endpoint, e2: Endpoint)
    ensures Route(e1) == Route(e2) ==> e1 == e2
  {
  }

  /** Each group's routes live under its prefix. */
  lemma RoutesUnderGroupPrefix(e: Endpoint)
    ensures GroupPrefix(GroupOf(e)) <= Route(e).1
  {
  }

  /** Which roles a group admits: every role for the user area, administrators
      and super administrators for the admin area, super administrators
      alone for the super area. */
  lemma GroupAdmits(g: Group, r: Role)
    requires g != Public
    ensures r in Gate(g).value <==>
      match g
      case UserArea => true
      case AdminArea => r != UserRole
      case SuperArea => r == SuperAdminRole
      case Public => false
  {
  }

  /** A request as the pipeline sees it: a CORS preflight (any OPTIONS
      request), or a call of a route with its Authorization header. */
  datatype Request = Preflight | Call(endpoint: Endpoint, authorization: string)

  /** What happens to a request before any handler runs. */
  datatype Admission =
    | Answered(code: int)
    | Rejected(status: int)
    | Panicked
    | Handle(endpoint: Endpoint, keys: Keys)

  function Admit(req: Request, now: int, lib: Library): (r: Admission)
    ensures req.Preflight? <==> r == Answered(StatusNoContent)
    ensures req.Call? && GroupOf(req.endpoint) == Public ==> r == Handle(req.endpoint, map[])
    ensures req.Call? && GroupOf(req.endpoint) != Public ==>
      var gate := AuthRequired(Gate(GroupOf(req.endpoint)).value, req.authorization, now, lib, map[]);
      && (r.Handle? <==> gate.Continue?)
      && (r.Handle? ==> r == Handle(req.endpoint, gate.keys))
      && (r.Rejected? <==> gate.Abort?)
      && (r.Rejected? ==> r.status == RejectionStatus(gate.reason))
      && (r.Panicked? <==> gate.Crash?)
  {
    match req
    case Preflight => Answered(StatusNoContent)
    case Call(e, authorization) =>
      match Gate(GroupOf(e))
      case None => Handle(e, map[])
      case Some(allowed) =>
        match AuthRequired(allowed, authorization, now, lib, map[])
        case Continue(keys) => Handle(e, keys)
        case Abort(reason, _) => Rejected(RejectionStatus(reason))
        case Crash => Panicked
  }

  /** A token issued to a user, presented as "Bearer <token>" before it
      expires, is admitted to a route exactly when the route is public or
      its group admits the user's role, and is refused with 403 otherwise. */
  lemma IssuedTokenAdmission(user: User, issuedAt: int, lib: Library, token: string, e: Endpoint, now: int)
    requires Sound(lib)
    requires GenerateToken(user, issuedAt, lib) == Some(token)
    requires now < issuedAt + TokenLifetime
    ensures GroupOf(e) != Public && user.role !in Gate(GroupOf(e)).value ==>
      Admit(Call(e, BearerPrefix + token), now, lib) == Rejected(StatusForbidden)
    ensures GroupOf(e) != Public && user.role in Gate(GroupOf(e)).value ==>
      Admit(Call(e, BearerPrefix + token), now, lib)
        == Handle(e, Annotate(map[], Identity(user.id, RoleName(user.role))))
  {
    if GroupOf(e) != Public {
      var allowed := Gate(GroupOf(e)).value;
      var header := BearerPrefix + token;
      if user.role in allowed {
        IssuedTokenPassesGate(user, issuedAt, lib, token, allowed, now, map[]);
      } else {
        StripBearerRoundTrip(token);
        IssuedTokenVerifies(user, issuedAt, lib, token, now);
        IssuedClaimsIdentity(user, issuedAt);
        var who := Identity(user.id, RoleName(user.role));
        ContinuesIffRoleAllowed(allowed, header, now, lib, map[], who);
        RoleNamesAreExactlyThree();
      }
    }
  }

  /** A user-role token is refused with 403 on every administration route. */
  lemma UserTokenForbiddenOnAdminRoutes(user: User, issuedAt: int, lib: Library, token: string, e: Endpoint, now: int)
    requires Sound(lib)
    requires GenerateToken(user, issuedAt, lib) == Some(token)
    requires now < issuedAt + TokenLifetime
    requires user.role == UserRole && GroupOf(e) == AdminArea
    ensures Admit(Call(e, BearerPrefix + token), now, lib) == Rejected(StatusForbidden)
  {
    IssuedTokenAdmission(user, issuedAt, lib, token, e, now);
  }

  /** Registration, login and the gates end to end: a new account
      registered on an empty table can log in; its token is refused with 403
      on the user listing and admitted to the profile route as the new id
      with the role "user". */
  lemma RegisterLoginScenario(lib: Library, salt: Salt, newId: int, now: int)
    requires Sound(lib)
    requires GenerateToken(User(newId, "alice", "alice@example.com", Hashed(HashCost, salt, "secret"), UserRole, false), now, lib).Some?
    ensures var registered := UserHandlers.Register([], Some(UserHandlers.RegisterRequest("alice", "alice@example.com", "secret")), Some(salt), newId);
      && registered.status == StatusCreated
      && var login := UserHandlers.Login(registered.users, Some(UserHandlers.LoginRequest("alice", "secret")), now, lib);
      && login.status == StatusOK
      && login.body.Session?
      && Admit(Call(ListUsersRoute, BearerPrefix + login.body.token), now, lib) == Rejected(StatusForbidden)
      && Admit(Call(ProfileRoute, BearerPrefix + login.body.token), now, lib)
           == Handle(ProfileRoute, map["userID" := UserIdValue(newId), "userRole" := RoleValue("user")])
  {
    var req := UserHandlers.RegisterRequest("alice", "alice@example.com", "secret");
    var registered := UserHandlers.Register([], Some(req), Some(salt), newId);
    var alice := registered.users[0];
    assert registered.users == [alice];
    assert UserHandlers.FindByUsername(registered.users, "alice") == Some(alice);
    var token := GenerateToken(alice, now, lib).value;
    IssuedTokenAdmission(alice, now, lib, token, ListUsersRoute, now);
    IssuedTokenAdmission(alice, now, lib, token, ProfileRoute, now);
    var keys := Annotate(map[], Identity(newId, RoleName(UserRole)));
    assert keys == map["userID" := UserIdValue(newId), "userRole" := RoleValue("user")];
  }
}

=== FILE: strconv.dfy ===
/** Decimal integer parsing as Go's strconv package performs it for
    `ParseInt(s, 10, 64)`. On a 64-bit platform `Atoi(s)` returns exactly the
    same value and error class (its fast path for short strings accepts and
    rejects the same inputs), so one definition serves both. */
module Strconv {

  const MinInt64: int := -0x8000_0000_0000_0000
  const MaxInt64: int := 0x7FFF_FFFF_FFFF_FFFF
  const MaxUint64: int := 0xFFFF_FFFF_FFFF_FFFF

  predicate IsInt64(n: int)
  {
    MinInt64 <= n <= MaxInt64
  }

  /** Result of a parse. On overflow Go still returns a value: the bound of
      the sign's direction. On a syntax error the value is 0. */
  datatype NumResult = Parsed(value: int) | SyntaxError | RangeError(clamped: int) {

    /** What a caller sees when it discards the error (`n, _ := strconv.Atoi(s)`). */
    function ValueIgnoringError(): int
    {
      match this
      case Parsed(v) => v
      case SyntaxError => 0
      case RangeError(c) => c
    }
  }

  predicate IsDigit(c: char)
  {
    '0' <= c <= '9'
  }

  function DigitValue(c: char): (d: nat)
    requires IsDigit(c)
    ensures d < 10
  {
    (c as int) - ('0' as int)
  }

  function DigitChar(d: nat): (c: char)
    requires d < 10
    ensures IsDigit(c) && DigitValue(c) == d
  {
    ('0' as int + d) as char
  }

  /** Outcome of the unsigned scan inside ParseUint. */
  datatype UintScan = UintOk(n: nat) | UintSyntax | UintRange

  /** The digit loop of ParseUint for base 10: it accumulates from the left
      and reports a range error as soon as the accumulated value passes
      MaxUint64, without looking at the characters that follow. */
  function ScanUint(s: string, acc: nat): UintScan
    decreases |s|
  {
    if |s| == 0 then UintOk(acc)
    else if !IsDigit(s[0]) then UintSyntax
    else
      var next := acc * 10 + DigitValue(s[0]);
      if next > MaxUint64 then UintRange else ScanUint(s[1..], next)
  }

  function ParseUint(s: string): UintScan
  {
    if |s| == 0 then UintSyntax else ScanUint(s, 0)
  }

  /** strconv.ParseInt(s, 10, 64): an optional sign, then at least one digit;
      underscores are not accepted in base 10. */
  function ParseInt64(s: string): (r: NumResult)
    ensures r.Parsed? ==> IsInt64(r.value)
    ensures r.RangeError? ==> r.clamped == MinInt64 || r.clamped == MaxInt64
    ensures r.RangeError? ==> |s| > 0 && (r.clamped == MinInt64 <==> s[0] == '-')
    ensures |s| == 0 || (!IsDigit(s[0]) && s[0] != '+' && s[0] != '-') ==> r == SyntaxError
  {
    if |s| == 0 then SyntaxError
    else
      var neg := s[0] == '-';
      var digits := if s[0] == '+' || s[0] == '-' then s[1..] else s;
      match ParseUint(digits)
      case UintSyntax => SyntaxError
      case UintRange => RangeError(if neg then MinInt64 else MaxInt64)
      case UintOk(u) =>
        if !neg && u > MaxInt64 then RangeError(MaxInt64)
        else if neg && u > -MinInt64 then RangeError(MinInt64)
        else Parsed(if neg then -(u as int) else u as int)
  }

  /** Decimal rendering of a natural number, most significant digit first. */
  function NatDigits(n: nat): (s: string)
    ensures |s| > 0 && IsDigit(s[0])
    decreases n
  {
    if n < 10 then [DigitChar(n)] else NatDigits(n / 10) + [DigitChar(n % 10)]
  }

  /** strconv.FormatInt(n, 10). */
  function FormatInt(n: int): string
  {
    if n < 0 then "-" + NatDigits(-n) else NatDigits(n)
  }

  /** Scanning a concatenation continues from where the first part stopped. */
  lemma {:induction false} ScanAppend(s: string, t: string, acc: nat, v: nat)
    requires ScanUint(s, acc) == UintOk(v)
    ensures ScanUint(s + t, acc) == ScanUint(t, v)
    decreases |s|
  {
    if |s| == 0 {
      assert s + t == t;
    } else {
      var next := acc * 10 + DigitValue(s[0]);
      assert (s + t)[0] == s[0];
      assert (s + t)[1..] == s[1..] + t;
      ScanAppend(s[1..], t, next, v);
    }
  }

  lemma {:induction false} ScanDigits(n: nat)
    requires n <= MaxUint64
    ensures ScanUint(NatDigits(n), 0) == UintOk(n)
    decreases n
  {
    if n >= 10 {
      ScanDigits(n / 10);
      ScanAppend(NatDigits(n / 10), [DigitChar(n % 10)], 0, n / 10);
      assert ScanUint([DigitChar(n % 10)], n / 10) == ScanUint([], n);
    }
  }

  /** Scanning stops at a range error whatever follows. */
  lemma {:induction false} ScanRangeAppend(s: string, t: string, acc: nat)
    requires ScanUint(s, acc) == UintRange
    ensures ScanUint(s + t, acc) == UintRange
    decreases |s|
  {
    var next := acc * 10 + DigitValue(s[0]);
    assert (s + t)[0] == s[0];
    if next <= MaxUint64 {
      assert (s + t)[1..] == s[1..] + t;
      ScanRangeAppend(s[1..], t, next);
    }
  }

  /** The digits of a number past MaxUint64 scan to a range error. */
  lemma {:induction false} ScanDigitsRange(n: nat)
    requires n > MaxUint64
    ensures ScanUint(NatDigits(n), 0) == UintRange
    decreases n
  {
    var d := [DigitChar(n % 10)];
    if n / 10 > MaxUint64 {
      ScanDigitsRange(n / 10);
      ScanRangeAppend(NatDigits(n / 10), d, 0);
    } else {
      ScanDigits(n / 10);
      ScanAppend(NatDigits(n / 10), d, 0, n / 10);
    }
  }

  /** Parsing the decimal text of a number outside 64 bits gives a range
      error carrying the bound on the number's side. */
  lemma FormatOutOfRangeClamps(n: int)
    requires !IsInt64(n)
    ensures ParseInt64(FormatInt(n)) == RangeError(if n < 0 then MinInt64 else MaxInt64)
  {
    var m: nat := if n < 0 then -n else n;
    if m > MaxUint64 {
      ScanDigitsRange(m);
    } else {
      ScanDigits(m);
    }
    if n < 0 {
      assert FormatInt(n)[1..] == NatDigits(m);
    }
  }

  /** Parsing a formatted 64-bit integer gives it back. */
  lemma FormatThenParse(n: int)
    requires IsInt64(n)
    ensures ParseInt64(FormatInt(n)) == Parsed(n)
  {
    if n < 0 {
      ScanDigits(-n);
      assert FormatInt(n)[1..] == NatDigits(-n);
    } else {
      ScanDigits(n);
    }
  }
}

=== FILE: user_handlers.dfy ===
/** The account handlers (internal/handlers/users.go). Each handler is a
    function of the users table and the request's inputs, returning the HTTP
    status, the table afterwards and the response body. The table is kept
    newest first, the order the user listing reads it in, so registration
    puts the new row at the front. A request body that fails to bind is
    `None`; the salt bcrypt would draw and the id the database would assign
    to a new row are inputs. */
module UserHandlers {
  import opened Wrappers
  import opened Bcrypt
  import Jwt
  import opened Strconv
  import opened Models
  import opened Auth
  import opened Http

  datatype RegisterRequest = RegisterRequest(username: string, email: string, password: string)
  datatype LoginRequest = LoginRequest(username: string, password: string)
  datatype ChangeProfileRequest = ChangeProfileRequest(username: string, email: string)
  datatype ChangePasswordRequest = ChangePasswordRequest(oldPassword: string, newPassword: string)

  /** The response body, by kind; error and success messages are not modelled. */
  datatype Body =
    | ErrorBody
    | MessageBody
    | Registered(userId: int)
    | Session(token: string, id: int, username: string, email: string, role: Role)
    | UserList(users: seq<PublicUser>)

  datatype Reply = Reply(status: int, users: seq<User>, body: Body)

  // ----- The users table -----

  /** Two rows share no id, no username and no email. */
  predicate Apart(u: User, v: User)
  {
    u.id != v.id && u.username != v.username && u.email != v.email
  }

  /** The table invariant: ids (the primary key), usernames and emails are
      pairwise distinct. */
  predicate WellFormed(users: seq<User>)
  {
    forall i, j | 0 <= i < j < |users| :: Apart(users[i], users[j])
  }

  /** The first row with the given username, as a single-row query returns it. */
  function FindByUsername(users: seq<User>, name: string): (r: Option<User>)
    ensures r.Some? ==> r.value in users && r.value.username == name
    ensures r.None? <==> forall u | u in users :: u.username != name
  {
    if |users| == 0 then None
    else if users[0].username == name then Some(users[0])
    else FindByUsername(users[1..], name)
  }

  /** The first row with the given id. */
  function FindById(users: seq<User>, id: int): (r: Option<User>)
    ensures r.Some? ==> r.value in users && r.value.id == id
    ensures r.None? <==> forall u | u in users :: u.id != id
  {
    if |users| == 0 then None
    else if users[0].id == id then Some(users[0])
    else FindById(users[1..], id)
  }

  /** In a well-formed table a row is the one its username finds. */
  lemma {:induction false} FindByUsernameUnique(users: seq<User>, u: User)
    requires WellFormed(users)
    requires u in users
    ensures FindByUsername(users, u.username) == Some(u)
  {
    if users[0] != u {
      var k :| 0 <= k < |users| && users[k] == u;
      assert Apart(users[0], users[k]);
      assert WellFormed(users[1..]) by {
        forall i, j | 0 <= i < j < |users[1..]|
          ensures Apart(users[1..][i], users[1..][j])
        {
          assert users[1..][i] == users[i + 1] && users[1..][j] == users[j + 1];
        }
      }
      assert users[1..][k - 1] == u;
      FindByUsernameUnique(users[1..], u);
    }
  }

  /** Whether some row already uses the username or the email. */
  predicate Taken(users: seq<User>, name: string, email: string)
  {
    exists i | 0 <= i < |users| :: users[i].username == name || users[i].email == email
  }

  /** Whether some row other than `self` uses the username or the email. */
  predicate TakenByOther(users: seq<User>, name: string, email: string, self: int)
  {
    exists i | 0 <= i < |users| :: (users[i].username == name || users[i].email == email) && users[i].id != self
  }

  /** `UPDATE users SET ... WHERE id = $n`: every row with the id is rewritten. */
  function UpdateWhereId(users: seq<User>, id: int, f: User -> User): (r: seq<User>)
    ensures |r| == |users|
    ensures forall i | 0 <= i < |users| :: r[i] == if users[i].id == id then f(users[i]) else users[i]
  {
    seq(|users|, i requires 0 <= i < |users| => if users[i].id == id then f(users[i]) else users[i])
  }

  /** `DELETE FROM users WHERE id = $1`: the rows with the id are dropped and
      the others kept in order. */
  function DeleteWhereId(users: seq<User>, id: int): (r: seq<User>)
    ensures forall u | u in r :: u in users && u.id != id
    ensures forall u | u in users && u.id != id :: u in r
    ensures |r| <= |users|
    decreases |users|
  {
    if |users| == 0 then []
    else (if users[0].id == id then [] else [users[0]]) + DeleteWhereId(users[1..], id)
  }

  /** With the id on exactly one row, deleting it leaves the rows before
      and after that row, in their order. */
  lemma {:induction false} DeleteRemovesOnlyRow(users: seq<User>, id: int, k: nat)
    requires k < |users| && users[k].id == id
    requires forall i | 0 <= i < |users| && i != k :: users[i].id != id
    ensures DeleteWhereId(users, id) == users[..k] + users[k + 1..]
    decreases |users|
  {
    TailIds(users, id, k);
    if k == 0 {
      DeleteKeepsAllOthers(users[1..], id);
    } else {
      DeleteRemovesOnlyRow(users[1..], id, k - 1);
      SpliceFront(users, k);
    }
  }

  lemma TailIds(users: seq<User>, id: int, k: nat)
    requires |users| > 0
    requires forall i | 0 <= i < |users| && i != k :: users[i].id != id
    ensures forall i | 0 <= i < |users| - 1 && i + 1 != k :: users[1..][i].id != id
  {
    forall i | 0 <= i < |users| - 1 && i + 1 != k
      ensures users[1..][i].id != id
    {
      assert users[1..][i] == users[i + 1];
    }
  }

  lemma SpliceFront(users: seq<User>, k: nat)
    requires 0 < k < |users|
    ensures [users[0]] + (users[1..][..k - 1] + users[1..][k..]) == users[..k] + users[k + 1..]
  {
    assert users[1..][..k - 1] == users[1..k];
    assert users[1..][k..] == users[k + 1..];
    assert users[..k] == [users[0]] + users[1..k];
  }

  /** Deleting an id no row carries keeps the table as it is. */
  lemma {:induction false} DeleteKeepsAllOthers(users: seq<User>, id: int)
    requires forall i | 0 <= i < |users| :: users[i].id != id
    ensures DeleteWhereId(users, id) == users
    decreases |users|
  {
    if |users| > 0 {
      DeleteKeepsAllOthers(users[1..], id);
      assert [users[0]] + users[1..] == users;
    }
  }

  // ----- Handlers -----

  /** POST /api/register. */
  function Register(users: seq<User>, bound: Option<RegisterRequest>, random: Option<Salt>, newId: int): (r: Reply)
    ensures bound.None? ==> r == Reply(StatusBadRequest, users, ErrorBody)
    ensures bound.Some? && Taken(users, bound.value.username, bound.value.email) ==>
      r == Reply(StatusConflict, users, ErrorBody)
    ensures bound.Some? && !Taken(users, bound.value.username, bound.value.email) && random.None? ==>
      r == Reply(StatusInternalServerError, users, ErrorBody)
    ensures bound.Some? && !Taken(users, bound.value.username, bound.value.email) && random.Some? ==>
      (r.status == StatusCreated <==> FindById(users, newId).None?)
    ensures r.status in {StatusCreated, StatusBadRequest, StatusConflict, StatusInternalServerError}
    ensures r.status != StatusCreated ==> r.users == users
    ensures r.status == StatusCreated ==>
      && bound.Some?
      && |r.users| == |users| + 1
      && r.users[1..] == users
      && var u := r.users[0];
      && u.id == newId
      && u.username == bound.value.username
      && u.email == bound.value.email
      && u.role == UserRole
      && !u.isBlocked
      && CheckPassword(bound.value.password, u.password)
      && r.body == Registered(newId)
  {
    match bound
    case None => Reply(StatusBadRequest, users, ErrorBody)
    case Some(req) =>
      if Taken(users, req.username, req.email) then Reply(StatusConflict, users, ErrorBody)
      else
        match HashPassword(req.password, random)
        case None => Reply(StatusInternalServerError, users, ErrorBody)
        case Some(digest) =>
          // the insert violates the primary key when the assigned id is in use
          if FindById(users, newId).Some? then Reply(StatusInternalServerError, users, ErrorBody)
          else
            var u := User(newId, req.username, req.email, digest, UserRole, false);
            Reply(StatusCreated, [u] + users, Registered(newId))
  }

  /** POST /api/login. The checks run in order: unknown username, blocked
      account, wrong password. */
  function Login(users: seq<User>, bound: Option<LoginRequest>, now: int, lib: Jwt.Library): (r: Reply)
    ensures r.users == users
    ensures bound.None? ==> r.status == StatusBadRequest
    ensures bound.Some? && FindByUsername(users, bound.value.username).None? ==>
      r == Reply(StatusUnauthorized, users, ErrorBody)
    ensures bound.Some? && FindByUsername(users, bound.value.username).Some? ==>
      var u := FindByUsername(users, bound.value.username).value;
      && (u.isBlocked ==> r == Reply(StatusForbidden, users, ErrorBody))
      && (!u.isBlocked && !CheckPassword(bound.value.password, u.password) ==>
            r == Reply(StatusUnauthorized, users, ErrorBody))
      && (!u.isBlocked && CheckPassword(bound.value.password, u.password) ==>
            (r.status == StatusOK <==> GenerateToken(u, now, lib).Some?)
            && (GenerateToken(u, now, lib).None? ==> r == Reply(StatusInternalServerError, users, ErrorBody)))
    ensures r.status == StatusOK ==>
      && bound.Some?
      && FindByUsername(users, bound.value.username).Some?
      && var u := FindByUsername(users, bound.value.username).value;
      && !u.isBlocked
      && CheckPassword(bound.value.password, u.password)
      && GenerateToken(u, now, lib).Some?
      && r.body == Session(GenerateToken(u, now, lib).value, u.id, u.username, u.email, u.role)
  {
    match bound
    case None => Reply(StatusBadRequest, users, ErrorBody)
    case Some(req) =>
      match FindByUsername(users, req.username)
      case None => Reply(StatusUnauthorized, users, ErrorBody)
      case Some(u) =>
        if u.isBlocked then Reply(StatusForbidden, users, ErrorBody)
        else if !CheckPassword(req.password, u.password) then Reply(StatusUnauthorized, users, ErrorBody)
        else
          match GenerateToken(u, now, lib)
          case None => Reply(StatusInternalServerError, users, ErrorBody)
          case Some(token) => Reply(StatusOK, users, Session(token, u.id, u.username, u.email, u.role))
  }

  /** PUT /api/user/profile, for the user the gate recorded as `userId`. */
  function ChangeProfile(users: seq<User>, userId: int, bound: Option<ChangeProfileRequest>): (r: Reply)
    ensures bound.None? ==> r == Reply(StatusBadRequest, users, ErrorBody)
    ensures bound.Some? ==>
      (r.status == StatusConflict <==> TakenByOther(users, bound.value.username, bound.value.email, userId))
    ensures bound.Some? && !TakenByOther(users, bound.value.username, bound.value.email, userId) ==>
      r.status == StatusOK
    ensures r.status != StatusOK ==> r.users == users
    ensures r.status == StatusOK ==>
      && bound.Some?
      && |r.users| == |users|
      && forall i | 0 <= i < |users| ::
           r.users[i] == if users[i].id == userId
                         then users[i].(username := bound.value.username, email := bound.value.email)
                         else users[i]
  {
    match bound
    case None => Reply(StatusBadRequest, users, ErrorBody)
    case Some(req) =>
      if TakenByOther(users, req.username, req.email, userId) then Reply(StatusConflict, users, ErrorBody)
      else
        var updated := UpdateWhereId(users, userId, (u: User) => u.(username := req.username, email := req.email));
        Reply(StatusOK, updated, MessageBody)
  }

  /** PUT /api/user/password, for the user the gate recorded as `userId`.
      A missing row is reported as a database error (500), since the lookup's
      no-rows error is not told apart here. */
  function ChangePassword(users: seq<User>, userId: int, bound: Option<ChangePasswordRequest>, random: Option<Salt>): (r: Reply)
    ensures bound.None? ==> r == Reply(StatusBadRequest, users, ErrorBody)
    ensures bound.Some? && FindById(users, userId).None? ==> r == Reply(StatusInternalServerError, users, ErrorBody)
    ensures (bound.Some? && FindById(users, userId).Some?
             && !CheckPassword(bound.value.oldPassword, FindById(users, userId).value.password)) ==>
      r == Reply(StatusBadRequest, users, ErrorBody)
    ensures (bound.Some? && FindById(users, userId).Some?
             && CheckPassword(bound.value.oldPassword, FindById(users, userId).value.password)) ==>
      (r.status == StatusOK <==> random.Some?)
      && (random.None? ==> r == Reply(StatusInternalServerError, users, ErrorBody))
    ensures r.status != StatusOK ==> r.users == users
    ensures r.status == StatusOK ==>
      && bound.Some?
      && CheckPassword(bound.value.oldPassword, FindById(users, userId).value.password)
      && |r.users| == |users|
      && forall i | 0 <= i < |users| ::
           if users[i].id == userId
           then CheckPassword(bound.value.newPassword, r.users[i].password)
                && r.users[i] == users[i].(password := r.users[i].password)
           else r.users[i] == users[i]
  {
    match bound
    case None => Reply(StatusBadRequest, users, ErrorBody)
    case Some(req) =>
      match FindById(users, userId)
      case None => Reply(StatusInternalServerError, users, ErrorBody)
      case Some(current) =>
        if !CheckPassword(req.oldPassword, current.password) then Reply(StatusBadRequest, users, ErrorBody)
        else
          match HashPassword(req.newPassword, random)
          case None => Reply(StatusInternalServerError, users, ErrorBody)
          case Some(digest) => Reply(StatusOK, UpdateWhereId(users, userId, (u: User) => u.(password := digest)), MessageBody)
  }

  /** GET /api/admin/users: every user, without password hashes. */
  function GetUsers(users: seq<User>): (r: Reply)
    ensures r.status == StatusOK && r.users == users
    ensures r.body.UserList? && |r.body.users| == |users|
    ensures forall i | 0 <= i < |users| :: r.body.users[i] == Public(users[i])
  {
    Reply(StatusOK, users, UserList(seq(|users|, i requires 0 <= i < |users| => Public(users[i]))))
  }

  /** Two tables that differ only in password hashes list identically: no
      hash reaches the listing. */
  lemma ListingHidesPasswords(users: seq<User>, others: seq<User>)
    requires |users| == |others|
    requires forall i | 0 <= i < |users| :: others[i] == users[i].(password := others[i].password)
    ensures GetUsers(users).body == GetUsers(others).body
  {
    assert GetUsers(users).body.users == GetUsers(others).body.users;
  }

  datatype TargetOutcome = Refused(status: int) | Target(id: int)

  /** The outcome of the checks Block and Delete share: the path id must
      parse (400), name an existing row (404), and that row must not be a
      super_admin (403). The caller's own role is not consulted. */
  function TargetCheck(users: seq<User>, idParam: string): (r: TargetOutcome)
    ensures r.Refused? ==> r.status in {StatusBadRequest, StatusNotFound, StatusForbidden}
    ensures !ParseInt64(idParam).Parsed? ==> r == Refused(StatusBadRequest)
    ensures ParseInt64(idParam).Parsed? && FindById(users, ParseInt64(idParam).value).None? ==>
      r == Refused(StatusNotFound)
    ensures ParseInt64(idParam).Parsed? && FindById(users, ParseInt64(idParam).value).Some? ==>
      (r == Refused(StatusForbidden) <==> FindById(users, ParseInt64(idParam).value).value.role == SuperAdminRole)
    ensures ParseInt64(idParam).Parsed? && FindById(users, ParseInt64(idParam).value).Some?
            && FindById(users, ParseInt64(idParam).value).value.role != SuperAdminRole ==>
      r == Target(ParseInt64(idParam).value)
    ensures r.Target? ==>
      && ParseInt64(idParam) == Parsed(r.id)
      && FindById(users, r.id).Some?
      && FindById(users, r.id).value.role != SuperAdminRole
  {
    match ParseInt64(idParam)
    case Parsed(id) =>
      (match FindById(users, id)
       case None => Refused(StatusNotFound)
       case Some(u) => if u.role == SuperAdminRole then Refused(StatusForbidden) else Target(id))
    case _ => Refused(StatusBadRequest)
  }

  /** PUT /api/admin/users/:id/block. */
  function BlockUser(users: seq<User>, idParam: string): (r: Reply)
    ensures TargetCheck(users, idParam).Refused? ==>
      r == Reply(TargetCheck(users, idParam).status, users, ErrorBody)
    ensures TargetCheck(users, idParam).Target? ==> r.status == StatusOK
    ensures r.status != StatusOK ==> r.users == users
    ensures r.status == StatusOK ==>
      && TargetCheck(users, idParam).Target?
      && var id := TargetCheck(users, idParam).id;
      && |r.users| == |users|
      && forall i | 0 <= i < |users| ::
           r.users[i] == if users[i].id == id then users[i].(isBlocked := true) else users[i]
  {
    match TargetCheck(users, idParam)
    case Refused(status) => Reply(status, users, ErrorBody)
    case Target(id) => Reply(StatusOK, UpdateWhereId(users, id, (u: User) => u.(isBlocked := true)), MessageBody)
  }

  /** DELETE /api/admin/users/:id. */
  function DeleteUser(users: seq<User>, idParam: string): (r: Reply)
    ensures TargetCheck(users, idParam).Refused? ==>
      r == Reply(TargetCheck(users, idParam).status, users, ErrorBody)
    ensures TargetCheck(users, idParam).Target? ==>
      r.status == StatusOK && r.users == DeleteWhereId(users, TargetCheck(users, idParam).id)
    ensures r.status != StatusOK ==> r.users == users
    ensures r.status == StatusOK ==>
      && TargetCheck(users, idParam).Target?
      && var id := TargetCheck(users, idParam).id;
      && (forall u | u in r.users :: u in users && u.id != id)
      && (forall u | u in users && u.id != id :: u in r.users)
  {
    match TargetCheck(users, idParam)
    case Refused(status) => Reply(status, users, ErrorBody)
    case Target(id) => Reply(StatusOK, DeleteWhereId(users, id), MessageBody)
  }

  /** Deleting an ordinary user of a well-formed table removes exactly that
      row and keeps the others in their order. */
  lemma DeleteUserRemovesTarget(users: seq<User>, idParam: string, k: nat)
    requires WellFormed(users) && k < |users|
    requires ParseInt64(idParam) == Parsed(users[k].id)
    requires users[k].role != SuperAdminRole
    ensures DeleteUser(users, idParam) == Reply(StatusOK, users[..k] + users[k + 1..], MessageBody)
  {
    var id := users[k].id;
    assert forall i | 0 <= i < |users| && i != k :: users[i].id != id by {
      forall i | 0 <= i < |users| && i != k
        ensures users[i].id != id
      {
        if i < k { assert Apart(users[i], users[k]); } else { assert Apart(users[k], users[i]); }
      }
    }
    assert users[k] in users;
    assert FindById(users, id).value == users[k];
    DeleteRemovesOnlyRow(users, id, k);
  }

  // ----- The table invariant is kept by every handler that writes -----

  lemma WellFormedTail(users: seq<User>)
    requires WellFormed(users) && |users| > 0
    ensures WellFormed(users[1..])
  {
    forall i, j | 0 <= i < j < |users[1..]|
      ensures Apart(users[1..][i], users[1..][j])
    {
      assert users[1..][i] == users[i + 1] && users[1..][j] == users[j + 1];
    }
  }

  lemma {:induction false} DeletePreservesWellFormed(users: seq<User>, id: int)
    requires WellFormed(users)
    ensures WellFormed(DeleteWhereId(users, id))
    decreases |users|
  {
    if |users| > 0 {
      WellFormedTail(users);
      DeletePreservesWellFormed(users[1..], id);
      var rest := DeleteWhereId(users[1..], id);
      if users[0].id != id {
        var r := [users[0]] + rest;
        forall i, j | 0 <= i < j < |r|
          ensures Apart(r[i], r[j])
        {
          if i == 0 {
            assert r[j] == rest[j - 1] && rest[j - 1] in users[1..];
            var k :| 0 <= k < |users[1..]| && users[1..][k] == r[j];
            assert users[k + 1] == r[j];
          } else {
            assert r[i] == rest[i - 1] && r[j] == rest[j - 1];
          }
        }
      }
    }
  }

  lemma RegisterPreservesWellFormed(users: seq<User>, bound: Option<RegisterRequest>, random: Option<Salt>, newId: int)
    requires WellFormed(users)
    ensures WellFormed(Register(users, bound, random, newId).users)
  {
    var r := Register(users, bound, random, newId);
    if r.status == StatusCreated {
      forall i, j | 0 <= i < j < |r.users|
        ensures Apart(r.users[i], r.users[j])
      {
        if i == 0 {
          assert r.users[j] == users[j - 1];
          assert users[j - 1] in users;
        } else {
          assert r.users[i] == users[i - 1] && r.users[j] == users[j - 1];
        }
      }
    }
  }

  lemma ChangeProfilePreservesWellFormed(users: seq<User>, userId: int, bound: Option<ChangeProfileRequest>)
    requires WellFormed(users)
    ensures WellFormed(ChangeProfile(users, userId, bound).users)
  {
    var r := ChangeProfile(users, userId, bound);
    if r.status == StatusOK {
      var req := bound.value;
      forall i, j | 0 <= i < j < |r.users|
        ensures Apart(r.users[i], r.users[j])
      {
        assert Apart(users[i], users[j]);
      }
    }
  }

  lemma ChangePasswordPreservesWellFormed(users: seq<User>, userId: int, bound: Option<ChangePasswordRequest>, random: Option<Salt>)
    requires WellFormed(users)
    ensures WellFormed(ChangePassword(users, userId, bound, random).users)
  {
    var r := ChangePassword(users, userId, bound, random);
    if r.status == StatusOK {
      forall i, j | 0 <= i < j < |r.users|
        ensures Apart(r.users[i], r.users[j])
      {
        assert Apart(users[i], users[j]);
      }
    }
  }

  lemma BlockPreservesWellFormed(users: seq<User>, idParam: string)
    requires WellFormed(users)
    ensures WellFormed(BlockUser(users, idParam).users)
  {
    var r := BlockUser(users, idParam);
    if r.status == StatusOK {
      forall i, j | 0 <= i < j < |r.users|
        ensures Apart(r.users[i], r.users[j])
      {
        assert Apart(users[i], users[j]);
      }
    }
  }

  lemma DeleteUserPreservesWellFormed(users: seq<User>, idParam: string)
    requires WellFormed(users)
    ensures WellFormed(DeleteUser(users, idParam).users)
  {
    if DeleteUser(users, idParam).status == StatusOK {
      DeletePreservesWellFormed(users, TargetCheck(users, idParam).id);
    }
  }

  /** A login is refused with 401 exactly when the username is unknown or,
      for an account that is not blocked, the password is wrong: both causes
      get the same reply. A blocked account gets 403 whatever the password. */
  lemma UnauthorizedLoginCauses(users: seq<User>, req: LoginRequest, now: int, lib: Jwt.Library)
    ensures Login(users, Some(req), now, lib).status == StatusUnauthorized <==>
      || FindByUsername(users, req.username).None?
      || (&& !FindByUsername(users, req.username).value.isBlocked
          && !CheckPassword(req.password, FindByUsername(users, req.username).value.password))
    ensures Login(users, Some(req), now, lib).status == StatusUnauthorized ==>
      Login(users, Some(req), now, lib) == Reply(StatusUnauthorized, users, ErrorBody)
  {}
}

=== FILE: wrappers.dfy ===
/** Optional values, used for everything the service may or may not have:
    a bound request body, a looked-up row, a generated salt, a signed token. */
module Wrappers {

  datatype Option<+T> = None | Some(value: T) {

    /** The wrapped value, or `default` when there is none. */
    function GetOr(default: T): T
    {
      match this
      case Some(v) => v
      case None => default
    }
  }
}

/** The HTTP status codes the handlers and the middleware answer with. */
module Http {
  const StatusOK: int := 200
  const StatusCreated: int := 201
  const StatusNoContent: int := 204
  const StatusBadRequest: int := 400
  const StatusUnauthorized: int := 401
  const StatusForbidden: int := 403
  const StatusNotFound: int := 404
  const StatusConflict: int := 409
  const StatusInternalServerError: int := 500
}
